=== FILE: README.md ===
# Frostbyte terminal core in Dafny

This project models the core of the frostbyte terminal: the `frozen_term`
terminal widget library and the `frostbyte_term` drop-down application built on
it. It covers the parts of that core that carry logic:

- **Selection** (`selection.dfy`, module `Selections`). The mouse-selection
  state machine has four steps: idle, starting, selecting and selected. Its
  positions are absolute scrollback coordinates. The dragged end stays relative
  to the viewport until the button is released. The machine also reports the
  rows each change invalidates.
- **Viewport** (`viewport.dfy`, module `Viewport`). This is the scroll-offset
  bookkeeping of the wezterm grid: the maximum offset, auto-follow while output
  arrives, clamping on resize, and scrolling up and down.
- **Row render cache** (`prerenderer.dfy`, module `PreRender`). The cache is a
  window of at most 100 entries over absolute scrollback rows. Each update
  aligns the window on the visible range; the model's update uses a corrected
  alignment (see Findings), and the alignment as written is modelled beside it
  and shown to agree with it on every cache shape reachable without a jump
  longer than the cap. A row is re-rendered only when its
  sequence number has moved past the stored one. Rendering splits a row into
  spans of equal attributes and selection membership, and selected cells swap
  their colours.
- **Style** (`style.dfy`, module `Styles`). This covers colour resolution for
  cell colour attributes, including palette lookup and fallback to the style's
  foreground or background colour, and the builder setters.
- **Paste** (`paste.dfy`, module `Paste`). Bracketed-paste markers are stripped
  from pasted text.
- **Keys** (`keys.dfy`, module `Keys`). GUI key events are translated into the
  terminal engine's key codes and modifier flags.
- **Application** (`ui.dfy`, module `Ui`). The drop-down application keeps a
  map of tabs with a selected tab and an id counter. Its window opens and
  closes with a global hotkey. Its message handler and the hotkey key filter
  are modelled too.

Shared types live in `grid_types.dfy` (module `GridTypes`): option,
positions, sizes, half-open row ranges and saturating subtraction.

The terminal engine is reduced to the numbers the widget reads. These are the
number of scrollback rows and of physical rows, and, for rendering, each line's
sequence number and cells. What the engine does when it consumes bytes or is
resized is outside the model, so the post-operation values are parameters.
Rust `usize` and `u32` values are modelled as unbounded naturals.

## Model

| member | source | states |
|---|---|---|
| GridTypes.SaturatingSub | frozen_term/src/wezterm.rs:60-65 | the result is zero exactly when the subtrahend is at least the minuend, and otherwise adds back to the minuend |
| GridTypes.SpanRows | frozen_term/src/wezterm/selection.rs:94-98 | the inclusive row span between two rows in either order: non-empty, and it contains exactly the rows between the smaller and the larger |
| Selections.FromVisible | frozen_term/src/wezterm/selection.rs:14-19 | keeps the column, and the absolute row minus the offset is the viewport row |
| Selections.NewState | frozen_term/src/wezterm/selection.rs:48-53 | a new state is idle at scroll offset 0, inactive, with no selection |
| Selections.NewSelection | frozen_term/src/wezterm/selection.rs:177-185 | the result holds the two given points, ordered so that start comes first in (row, column) order |
| Selections.IsSelected | frozen_term/src/wezterm/selection.rs:188-211 | the case split of `is_selected`; its meaning is stated by Selections.IsSelectedIsLexInterval |
| Selections.IsActive | frozen_term/src/wezterm/selection.rs:154-160 | active exactly in the starting and selecting steps |
| Selections.GetSelection | frozen_term/src/wezterm/selection.rs:162-173 | a selection exists exactly while selecting or selected; it is normalised, with its end resolved at the current offset |
| Selections.Start | frozen_term/src/wezterm/selection.rs:56-78 | enters the starting step at the pressed position; it invalidates rows exactly when a selection existed, namely the rows from its first to its last row |
| Selections.MoveEnd | frozen_term/src/wezterm/selection.rs:81-108 | inactive states are unchanged with nothing to invalidate; active ones move to selecting with the same start, and the invalidated rows are exactly those from the lower to the higher of the old and new end rows |
| Selections.Finish | frozen_term/src/wezterm/selection.rs:110-131 | selecting becomes selected with the same normalised selection, and starting becomes idle; the result is never active |
| Selections.SetScroll | frozen_term/src/wezterm/selection.rs:134-152 | stores the offset; it invalidates rows exactly when selecting and the offset changed, and then exactly the rows from the lower to the higher of the end rows before and after |
| Selections.FromVisibleShift | frozen_term/src/wezterm/selection.rs:14-19 | converting at two offsets shifts only the row, by the difference of the offsets |
| Selections.NewSelectionSymmetric | frozen_term/src/wezterm/selection.rs:177-185 | normalising does not depend on the order of the two points |
| Selections.IsSelectedIsLexInterval | frozen_term/src/wezterm/selection.rs:188-211 | a cell is selected iff it lies between start and end in (row, column) order |
| Selections.IsSelectedSwapInvariant | frozen_term/src/wezterm/selection.rs:188-211 | swapping the two ends selects exactly the same cells |
| Selections.StartInvalidatesOldSelection | frozen_term/src/wezterm/selection.rs:56-78 | every cell of the replaced selection lies in the invalidated rows |
| Selections.SelectedSurvivesScroll | frozen_term/src/wezterm/selection.rs:134-152 | a committed selection reads back the same at any offset, and scrolling it invalidates nothing |
| Selections.FinishIdempotent | frozen_term/src/wezterm/selection.rs:110-131 | finishing twice is finishing once |
| Selections.ScrollThenFinish | frozen_term/src/wezterm/selection.rs:110-152 | scrolling during a drag and then releasing commits the end resolved at the new offset; the start does not move |
| Selections.PressDragRelease | frozen_term/src/wezterm/selection.rs:56-131 | press, drag and release select exactly the cells between the press and release points, in either direction |
| Viewport.MaxScroll | frozen_term/src/wezterm.rs:60-65 | the offset at which the last physical row is the newest scrollback row, zero when the history fits on screen |
| Viewport.AdvanceBytes | frozen_term/src/wezterm.rs:69-75 | a view showing the newest rows keeps following them; any other view keeps its offset |
| Viewport.Resize | frozen_term/src/wezterm.rs:77-86 | takes the new size, and the offset is the old one clamped to the new maximum, never larger than before |
| Viewport.ScrollUp | frozen_term/src/wezterm.rs:126-128 | moves towards older rows by the given count, stopping at the top; nothing else changes |
| Viewport.ScrollDown | frozen_term/src/wezterm.rs:130-135 | moves towards newer rows by the given count, stopping at the bottom, and a clipped move ends pinned; nothing else changes |
| Viewport.OperationsPreserveInBounds | frozen_term/src/wezterm.rs:60-135 | scrolling and resizing keep the offset within the maximum; advancing does so while the history does not shrink |
| Viewport.ScrollDownFarEnoughPins | frozen_term/src/wezterm.rs:130-135 | scrolling down at least to the bottom pins the view |
| Viewport.ScrollUpDownRoundTrip | frozen_term/src/wezterm.rs:126-135 | an unclipped scroll up followed by a scroll down by the same count returns to the same grid |
| Viewport.ResizeIdempotent | frozen_term/src/wezterm.rs:77-86 | repeating a resize with the same arguments changes nothing |
| Viewport.AdvanceKeepsReaderPosition | frozen_term/src/wezterm.rs:69-75 | a view that was not pinned keeps its offset while output arrives |
| Viewport.ResizeDoesNotRepin | frozen_term/src/wezterm.rs:77-86 | a pinned 24-row view over 100 rows of history, shrunk to 10 rows, keeps offset 76 while the bottom moves to 90 |
| Viewport.ResizeKeepsPinIff | frozen_term/src/wezterm.rs:77-86 | a pinned view stays pinned through a resize iff the new bottom is not below the old offset |
| Paste.RemoveAll | frozen_term/src/wezterm.rs:119-124 | one `str::replace` pass never makes the text longer; the scan order itself is stated by Paste.RemoveAllAtFirst |
| Paste.RemoveAllAtFirst | frozen_term/src/wezterm.rs:119-124 | at the leftmost occurrence the pass keeps everything before it, drops the occurrence and carries on after it; with Paste.NotContainsUnchanged this fixes the result on every input, so every non-overlapping occurrence is removed, not just the first |
| Paste.RemoveAllKeepsPrefix | frozen_term/src/wezterm.rs:119-124 | a prefix in which no occurrence starts is passed through unchanged |
| Paste.PasteDropsEveryMarker | frozen_term/src/wezterm.rs:119-124 | repeated and interleaved markers are all stripped: two start markers paste as nothing, and a start marker around text before an end marker leaves only the text |
| Paste.PasteText | frozen_term/src/wezterm.rs:119-124 | the pasted text never grows; what the two passes remove is stated by Paste.PasteDropsEveryMarker and Paste.PasteFixpoint |
| Paste.NotContainsUnchanged | frozen_term/src/wezterm.rs:119-124 | text with no occurrence of the marker passes through unchanged |
| Paste.RemoveAllChangesIffContains | frozen_term/src/wezterm.rs:119-124 | removing a marker changes the text exactly when the marker occurs in it |
| Paste.PasteWithoutEscUnchanged | frozen_term/src/wezterm.rs:119-124 | text without an escape character is pasted unchanged |
| Paste.PasteFixpoint | frozen_term/src/wezterm.rs:119-124 | one paste pass is the identity exactly on text containing neither marker, and otherwise makes the text strictly shorter |
| Paste.PasteCanLeaveMarker | frozen_term/src/wezterm.rs:119-124 | the two passes, as written, turn `ESC[20` `ESC[201~` `1~` into an end marker |
| Paste.PasteStripped | frozen_term/src/wezterm.rs:119-124 | the corrected paste leaves neither marker, never grows the text, and passes marker-free text through unchanged |
| Keys.TranslateModifiers | frozen_term/src/wezterm.rs:155-240 | each engine modifier flag is set exactly when the matching GUI modifier is held |
| Keys.TranslateNamed | frozen_term/src/wezterm.rs:164-201 | no code exactly for Pause and unlisted named keys; F n gives function key n; only Space gives a character |
| Keys.TransformKey | frozen_term/src/wezterm.rs:155-240 | no code for unidentified keys, Pause and unlisted named keys; a character key gives its first character, Space gives a space, and Fn gives function key n, all with the translated modifiers |
| Keys.TransformKeyRoundTrip | frozen_term/src/wezterm.rs:155-240 | every produced code has a canonical key that translates back to that code under any modifiers |
| Keys.NamedKeysInjective | frozen_term/src/wezterm.rs:155-240 | distinct translated named keys give distinct codes, and only Space collides with a character key |
| Keys.TranslateModifiersInjective | frozen_term/src/wezterm.rs:155-240 | distinct modifier states give distinct flag sets |
| Styles.FromWezterm | frozen_term/src/terminal/style.rs:21-31 | the converted palette keeps every entry at its index |
| Styles.GetColor | frozen_term/src/terminal/style.rs:106-116 | no colour exactly for the default attribute; a palette index reads the palette, and a true colour is converted whatever its fallback |
| Styles.GetForegroundColor | frozen_term/src/terminal/style.rs:96-99 | the resolved colour, falling back exactly for the default attribute, to the style's foreground |
| Styles.GetBackgroundColor | frozen_term/src/terminal/style.rs:101-104 | the resolved colour, falling back exactly for the default attribute, to the style's background |
| Styles.TrueColorIgnoresPalette | frozen_term/src/terminal/style.rs:106-116 | a true colour ignores its fallback index and the palette |
| Styles.GetColorDependsOnPaletteOnlyForIndex | frozen_term/src/terminal/style.rs:106-116 | only palette indices consult the palette |
| Styles.FallbackOnlyForDefault | frozen_term/src/terminal/style.rs:76-104 | changing the style's foreground or background colour changes the resolution of the default attribute only |
| Styles.FallbacksAgreeOffDefault | frozen_term/src/terminal/style.rs:96-104 | foreground and background resolution agree except on the fallback colour |
| Styles.WithLineHeight | frozen_term/src/terminal/style.rs:61-64 | sets the line height and leaves every other field unchanged |
| Styles.WithTextSize | frozen_term/src/terminal/style.rs:66-69 | sets the text size and leaves every other field unchanged |
| Styles.WithPadding | frozen_term/src/terminal/style.rs:71-74 | sets the padding and leaves every other field unchanged |
| Styles.WithForegroundColor | frozen_term/src/terminal/style.rs:76-79 | sets the foreground colour and leaves every other field unchanged |
| Styles.WithBackgroundColor | frozen_term/src/terminal/style.rs:81-84 | sets the background colour and leaves every other field unchanged |
| Styles.WithFont | frozen_term/src/terminal/style.rs:86-89 | sets the font and leaves every other field unchanged |
| Styles.WithPalette | frozen_term/src/terminal/style.rs:91-94 | sets the palette and leaves every other field unchanged |
| Styles.SettersCommuteAndOverride | frozen_term/src/terminal/style.rs:61-94 | any two setters of different fields commute, and a later setter of the same field overrides an earlier one |
| Styles.SetterOfCurrentValue | frozen_term/src/terminal/style.rs:61-94 | setting a field to the value it holds changes nothing |
| Styles.PaletteIndexAfterConversion | frozen_term/src/terminal/style.rs:21-31 | a palette index resolves to the converted engine colour at that index |
| PreRender.New | frozen_term/src/wezterm/prerenderer.rs:24-32 | an empty, consistent cache at row 0 with a cap of 100 and no visible rows |
| PreRender.VisibleRows | frozen_term/src/wezterm/prerenderer.rs:172-182 | one item per row of the visible window, present exactly when that entry holds a rendering |
| PreRender.PushSpan | frozen_term/src/wezterm/prerenderer.rs:185-216 | no span for empty text; otherwise the span has that text and an underline iff the cell is underlined; if exactly one of reverse-video and selected holds, it takes the background-resolved colour as text colour and the foreground-resolved colour as background |
| PreRender.PushSpanReverseXorSelected | frozen_term/src/wezterm/prerenderer.rs:199-208 | selecting a reverse-video run cancels its reversal |
| PreRender.RunsFrom | frozen_term/src/wezterm/prerenderer.rs:108-135 | the cell loop from one cell on; its shape is stated by PreRender.RunsFromShape |
| PreRender.Runs | frozen_term/src/wezterm/prerenderer.rs:104-142 | the loop from cell 0 with a default, unselected run; characterised by PreRender.RunsCharacterisation |
| PreRender.RunsFromShape | frozen_term/src/wezterm/prerenderer.rs:104-142 | from any position, the cell loop yields runs that tile the rest of the line; each run is uniform in attributes and selection, neighbours differ, and only the first run may be empty |
| PreRender.RunsCharacterisation | frozen_term/src/wezterm/prerenderer.rs:104-142 | the runs of a line tile it from column 0, are uniform, differ from their neighbours, and the first starts with default unselected attributes |
| PreRender.SpansOf | frozen_term/src/wezterm/prerenderer.rs:117-142 | the `push_span` call at each run boundary and after the loop; its text is stated by PreRender.SpansOfText |
| PreRender.SpansOfText | frozen_term/src/wezterm/prerenderer.rs:104-142 | the span texts, concatenated, are the cell strings of the covered cells in order |
| PreRender.NeedsAdvanced | frozen_term/src/wezterm/prerenderer.rs:129-132 | set exactly when some cell string has a non-ASCII character |
| PreRender.RenderRowSpec | frozen_term/src/wezterm/prerenderer.rs:104-165 | no rendering exactly when every cell string is empty; otherwise the span texts concatenate to the line's text, every span is non-empty, and shaping is advanced iff some cell is non-ASCII |
| PreRender.SpanOfRun | frozen_term/src/wezterm/prerenderer.rs:108-142 | the span of a run with non-empty text sits among the row's spans right after the spans of the earlier runs, and those carry exactly the text of the cells before the run |
| PreRender.RenderRowHoldsSpans | frozen_term/src/wezterm/prerenderer.rs:108-165 | a rendered row holds exactly the spans of the line's runs, and there is one exactly when those spans are not empty |
| PreRender.RenderRowCellLook | frozen_term/src/wezterm/prerenderer.rs:108-142 | every non-empty cell k is drawn in the span that holds it: span i carries the text of cells a..b with a <= k < b, the spans before it carry exactly the text of the cells before a, and span i has the colours `push_span` gives for cell k's own attributes and selection membership, so selected cells have their colours swapped and reverse video cancelled |
| PreRender.GrowForward | frozen_term/src/wezterm/prerenderer.rs:62-74 | corrected: the window reaches the requested end and stays within the cap; surviving rows keep their entries and new rows get default entries |
| PreRender.GrowBackward | frozen_term/src/wezterm/prerenderer.rs:76-89 | corrected: the window starts at the requested row and stays within the cap, with entries re-indexed as above |
| PreRender.Align | frozen_term/src/wezterm/prerenderer.rs:57-89 | corrected: the window covers the visible range and stays within the cap; every row keeps its entry, or gets a default one if it is new to the window |
| PreRender.AlignCoveredIsNoOp | frozen_term/src/wezterm/prerenderer.rs:57-89 | a window already covering the range is left unchanged |
| PreRender.GrowForwardAsWritten | frozen_term/src/wezterm/prerenderer.rs:62-74 | forward growth as written, with the free space passed in |
| PreRender.GrowBackwardAsWritten | frozen_term/src/wezterm/prerenderer.rs:76-89 | backward growth as written, with the free space passed in |
| PreRender.AlignAsWritten | frozen_term/src/wezterm/prerenderer.rs:59-89 | the alignment as written, free space computed once with release-build wrap-around |
| PreRender.GrowForwardAsWrittenBounded | frozen_term/src/wezterm/prerenderer.rs:62-74 | as written, a forward jump of at most the cap reaches the end, keeps the cap, and re-indexes entries correctly |
| PreRender.ForwardAgreesOnReachable | frozen_term/src/wezterm/prerenderer.rs:62-74 | on a reachable shape with a jump of at most the cap, forward growth as written is the corrected one and keeps the shape |
| PreRender.BackwardAgreesOnReachable | frozen_term/src/wezterm/prerenderer.rs:76-89 | backward growth as written is the corrected one when it does not fire, or on a full cache with a jump of at most the cap |
| PreRender.AsWrittenAgreesOnReachable | frozen_term/src/wezterm/prerenderer.rs:57-89 | on every cache shape reachable from `new` (base 0, or a full cache) with jumps of at most the cap, the alignment as written equals the corrected one and keeps the shape |
| PreRender.BackwardGrowthMisaligns | frozen_term/src/wezterm/prerenderer.rs:76-89 | as written, after an overflow to 500 entries from row 424, scrolling up to 423..447 leaves the window at row 424 and files every entry one row too late |
| PreRender.ForwardJumpOverflowsCap | frozen_term/src/wezterm/prerenderer.rs:62-74 | as written, a jump from rows 0..24 to 500..524 leaves 500 entries, over the cap of 100 |
| PreRender.BackwardJumpOverflowsCap | frozen_term/src/wezterm/prerenderer.rs:76-89 | as written, a jump from a full cache at row 500 back to 0..24 leaves 500 entries, over the cap of 100 |
| PreRender.TallScreenMisaligns | frozen_term/src/wezterm/prerenderer.rs:59-89 | as written, a 120-row screen over an empty cache leaves 140 entries with the window starting at row 20, after the first visible row |
| PreRender.AlignTall | frozen_term/src/wezterm/prerenderer.rs:57-89 | corrected for screens taller than the cap: the window starts at or before the first visible row, covers the screen, holds at most the larger of cap and screen height, re-indexes entries, and is `Align` on screens within the cap |
| PreRender.RefreshEntry | frozen_term/src/wezterm/prerenderer.rs:99-102 | the stored sequence number becomes the larger of the stored and the line's, and an entry whose number has not moved is untouched |
| PreRender.Rerender | frozen_term/src/wezterm/prerenderer.rs:100-168 | the stored number becomes the larger of the stored and the line's; an entry whose line has not moved is untouched, otherwise it takes the line's rendering |
| PreRender.RefreshEntries | frozen_term/src/wezterm/prerenderer.rs:91-169 | what a refresh does to the cache: rows without a line keep their entries; the entry of each line takes the larger of the stored and the line's sequence number, is untouched when the line has not moved, and otherwise holds the line's number and its rendering |
| PreRender.Update | frozen_term/src/wezterm/prerenderer.rs:43-170 | corrected: runs on the corrected `Align`; the cache stays consistent and within its cap, its window covers the visible range, and the visible window maps to exactly that range |
| PreRender.UpdateWith | frozen_term/src/wezterm/prerenderer.rs:43-170 | the update with each line's rendering supplied: the cache stays consistent and within its cap, covers the visible range, and the visible window maps to exactly that range |
| PreRender.UpdateWithRow | frozen_term/src/wezterm/prerenderer.rs:91-169 | with renderings supplied, each row of a line goes through the sequence-number rule from the entry it had before; every other row keeps its entry |
| PreRender.UpdateWithLine | frozen_term/src/wezterm/prerenderer.rs:94-168 | with renderings supplied, the row of line i goes through the sequence-number rule from its old entry with rendering i |
| PreRender.UpdateWithLeavesNothingStale | frozen_term/src/wezterm/prerenderer.rs:99-168 | with renderings supplied, no line handed over is newer than its entry afterwards |
| PreRender.UpdateWithCoveredFresh | frozen_term/src/wezterm/prerenderer.rs:43-170 | with renderings supplied, an update over a window that already covers the range and holds no stale entry is the identity |
| PreRender.UpdateRow | frozen_term/src/wezterm/prerenderer.rs:91-169 | each row of a line goes through the sequence-number rule from the entry it had before, or a default one if new; every other row keeps its entry |
| PreRender.UpdateRerendersExactlyStale | frozen_term/src/wezterm/prerenderer.rs:99-168 | a row is re-rendered exactly when its line's sequence number moved past the stored one, and then it holds that line's rendering and number |
| PreRender.RefreshUnchanged | frozen_term/src/wezterm/prerenderer.rs:99-102 | refreshing with no line newer than its entry changes nothing |
| PreRender.UpdateLeavesNothingStale | frozen_term/src/wezterm/prerenderer.rs:99-168 | after an update, no line handed over is newer than its entry |
| PreRender.UpdateCoveredFresh | frozen_term/src/wezterm/prerenderer.rs:43-170 | an update over a window that already covers the range and holds no entry older than its line is the identity |
| PreRender.UpdateIdempotent | frozen_term/src/wezterm/prerenderer.rs:43-170 | a second update with the same lines re-renders nothing and changes nothing |
| PreRender.VisibleRowsAfterUpdate | frozen_term/src/wezterm/prerenderer.rs:91-182 | after an update, visible row i is the rendering held for row start+i, and it is that line's fresh rendering when the line was stale |
| PreRender.DefaultEntryRebuilt | frozen_term/src/wezterm/prerenderer.rs:228-235 | a never-rendered entry is rebuilt by any line with a non-zero sequence number |
| Ui.DefaultHotkey | frostbyte_term/src/ui.rs:489-499 | Pause when DEBUG is set, otherwise F12, with Alt off Linux; no other modifier |
| Ui.StartInMode | frostbyte_term/src/ui.rs:111-146 | the app starts with no tabs and no window, selected tab 1 and next id 1, the given mode and the default hotkey, satisfying the tab invariant |
| Ui.MinKey | frostbyte_term/src/ui.rs:313-322 | the first key of the ordered tab map is the smallest key present |
| Ui.CloseWindowOp | frostbyte_term/src/ui.rs:281-288 | forgets the window, and a close is issued only if one was open |
| Ui.OpenTabOp | frostbyte_term/src/ui.rs:290-302 | adds a terminal under the next id with the app's hotkey filter, selects it, bumps the counter and leaves the other tabs alone; it keeps the tab invariant |
| Ui.CloseTabOp | frostbyte_term/src/ui.rs:313-322 | removes the tab; it selects the smallest remaining one, or closes the window when none is left, and keeps the invariant |
| Ui.SwitchTabOp | frostbyte_term/src/ui.rs:324-328 | selects only existing tabs, ignores others, and keeps the invariant |
| Ui.OpenWindowOp | frostbyte_term/src/ui.rs:229-279 | an open window only gets focus; otherwise a window is recorded and a first tab is opened when there is none |
| Ui.FocusTab | frostbyte_term/src/ui.rs:304-311 | focuses the selected terminal and redraws exactly when the selected tab exists, otherwise no task |
| Ui.Update | frostbyte_term/src/ui.rs:149-227 | every message keeps the tab invariant; messages for unknown tabs are ignored; the hotkey toggles the window; a closed window is forgotten |
| Ui.OpenTabFresh | frostbyte_term/src/ui.rs:290-302 | a new tab's id is unused, and the tab count grows by one |
| Ui.CloseOtherTabReselectsSmallest | frostbyte_term/src/ui.rs:313-322 | closing tab 2 of tabs 1, 2, 3 while 3 is selected selects tab 1 |
| Ui.CloseLastTabClosesWindow | frostbyte_term/src/ui.rs:313-322 | closing the only tab leaves no tabs and closes the window |
| Ui.HotkeyTwiceRestores | frostbyte_term/src/ui.rs:174-180 | showing and then hiding a window that has tabs returns to the same state |
| Ui.HotkeyOpensFirstTab | frostbyte_term/src/ui.rs:229-279 | showing the window with no tabs opens exactly one tab and selects it |
| Ui.CloseWindowIdempotent | frostbyte_term/src/ui.rs:281-288 | closing twice issues no second close |
| Ui.HotkeyKey | frostbyte_term/src/ui.rs:510-524 | Pause or F12, with Alt exactly for AltF12 and no other modifier |
| Ui.Filter | frostbyte_term/src/ui.rs:527-545 | the filter closure; characterised by Ui.FilterCharacterisation |
| Ui.FilterCharacterisation | frostbyte_term/src/ui.rs:527-545 | the filter accepts exactly Ctrl+Shift+"T" (any further modifiers) and the hotkey's key with exactly its modifiers |
| Ui.FilterIgnoresLowerCaseT | frostbyte_term/src/ui.rs:527-545 | a lower-case "t" is never filtered |

## Left out

- The terminal engine itself is not modelled: VT parsing, the screen, scrollback storage and line contents. Its scrollback and physical row counts, and the lines of the visible range, are inputs.
- Rust's `usize` and `u32` are modelled as unbounded naturals. Overflow of `saturating_add` in `scroll_down` (`frozen_term/src/wezterm.rs:130-135`) and of the tab id counter is not modelled.
- PreRender.Align, PreRender.Update: a visible range taller than the 100-row cache cap is excluded by precondition; what the source does then is a finding (PreRender.TallScreenMisaligns), and PreRender.AlignTall is the corrected alignment for it, but it is not threaded through `Update` because its result exceeds the cap the next update starts from. A cache longer than its cap is excluded too; the corrected alignment never produces one.
- PreRender.Update: renders every line handed over up front (`Renderings`) and keeps only the renderings of stale lines, whereas the source renders only the stale ones (lines 99-102); the resulting cache is the same, and the cost of rendering is not modelled.
- PreRender.Align: the corrected alignment recomputes the free space before growing backward, while the source computes it once. On reachable cache shapes the two agree (PreRender.AsWrittenAgreesOnReachable).
- The wrap-around of `range.start - row_cache_start` and `index - row_cache_start` (`frozen_term/src/wezterm/prerenderer.rs:92-97`) after a misaligned window is not modelled; the as-written lemmas stop at the misaligned window.
- The renderer calls `is_maybe_selected` (`frozen_term/src/wezterm/prerenderer.rs:110`). That function is not part of this model, so the model uses `is_selected` from the selection module.
- The grid's `selection` field and `screen_lines` are not part of this model. The selection and the visible lines are parameters of `Update`.
- Shaping a paragraph with fonts, text size, line height and alignment is not modelled. A rendered row keeps its spans and the shaping mode that the paragraph is built from.
- Colours are four real components. The float conversion from the engine's colour tuple copies them unchanged, and rounding is not modelled.
- Keys.TransformKey: requires a character key to carry a non-empty string. The source takes its first character with `unwrap` (`frozen_term/src/wezterm.rs:161`) and panics on an empty one; the toolkit is not expected to deliver such a key, and the panic is not modelled.
- Logging is I/O and is not modelled: `resize` prints the new size (`frozen_term/src/wezterm.rs:78`), and the hotkey and tray handlers print send errors (`frostbyte_term/src/ui.rs:442-469`).
- Key encoding by the engine (`press_key`, `frozen_term/src/wezterm.rs:88-117`) is a foreign call. Only the translation `transform_key` is modelled.
- The UTF-8 encoding of the paste result is not modelled; the text is a character sequence.
- GUI window settings, layer-shell messages, tray icon, global hotkey registration, the SIGUSR1 handler and polling subscriptions are I/O and are not modelled. The two window modes are modelled as one path: both record the window id and open a first tab when there is none.
- Ui.Update: the tasks are tags (start terminal, focus, close window, exit); what they do at run time is not modelled.
- Selections.Finish: a drag that ends where it started stays selected, because the source does not discard an empty selection. This follows the code rather than the documentation.
- Viewport.Resize: a view pinned to the bottom is only clamped on resize, not re-pinned. This follows the code; Viewport.ResizeDoesNotRepin shows the difference.
- Extracting the selected text and the `Terminal` widget plumbing (`frozen_term/src/terminal.rs`, `frozen_term/src/local_terminal.rs`) are not part of this model.

## Findings

| source | as written | input that shows it | evidently intended | confidence | as-written member | corrected member |
|---|---|---|---|---|---|---|
| frozen_term/src/wezterm/prerenderer.rs:88 | after pushing `missing` entries in front, the base moves back by `missing_space` | in a release build, after the forward jump of the next row (prerenderer.rs:71-73, PreRender.ForwardJumpOverflowsCap) has left 500 entries from row 424 (`max_cache_size - len` at line 60 then wraps to a huge free space), scrolling up to rows 423..447 pushes one entry in front but leaves the base at 424, so every entry is filed one row too late and line 92 underflows; a debug build panics at line 60 first, and no state reachable without an overflow shows it (PreRender.AsWrittenAgreesOnReachable) | move the base back by `missing` | medium; not executed | PreRender.BackwardGrowthMisaligns | PreRender.Align |
| frozen_term/src/wezterm/prerenderer.rs:71-73 | pushes `missing` default entries even when `missing` exceeds the cap | a cache over rows 0..24 and visible range 500..524: 500 entries are left against a cap of 100, so `max_cache_size - len` at line 60 underflows on the next update | push at most `max_cache_size` entries | medium; not executed | PreRender.ForwardJumpOverflowsCap | PreRender.Align |
| frozen_term/src/wezterm/prerenderer.rs:85-87 | pushes `missing` default entries in front even when `missing` exceeds the cap | a full cache of 100 entries from row 500 and visible range 0..24 (scrolling to the top of a long history): 500 entries are left against a cap of 100, so line 60 underflows on the next update | push at most `max_cache_size` entries | medium; not executed | PreRender.BackwardJumpOverflowsCap | PreRender.Align |
| frozen_term/src/wezterm/prerenderer.rs:59-89 | assumes the screen fits in the 100-row cache | a 120-row screen over an empty cache (visible range 0..120): forward growth drops 20 rows of base and pushes 120 entries, backward growth pushes 20 more without moving the base back, leaving 140 entries from row 20, so `range.start - row_cache_start` at line 92 underflows on the first update | the window starts at the first visible row and covers the screen | medium; not executed | PreRender.TallScreenMisaligns | PreRender.AlignTall |
| frozen_term/src/wezterm.rs:119-124 | removes each bracketed-paste marker in one left-to-right pass | `ESC[20` `ESC[201~` `1~`: removing the inner end marker splices the outer text into a new end marker | pasted text contains no marker | medium; not executed | Paste.PasteCanLeaveMarker | Paste.PasteStripped |

=== FILE: grid_types.dfy ===
/** Shared vocabulary of the terminal display core: optional values, positions
    on the visible grid, the grid size and half-open ranges of absolute rows. */
module GridTypes {

  datatype Option<+T> = None | Some(value: T)

  /** A cell position relative to the top of the viewport (column x, row y). */
  datatype VisiblePosition = VisiblePosition(x: nat, y: nat)

  /** The terminal size in cells. */
  datatype Size = Size(cols: nat, rows: nat)

  /** A half-open range `start..end` of absolute (scrollback) row indices. */
  datatype RowRange = RowRange(start: nat, end: nat) {

    predicate Contains(row: nat) {
      start <= row < end
    }

    predicate IsEmpty() {
      end <= start
    }
  }

  function Min(a: nat, b: nat): nat {
    if a <= b then a else b
  }

  function Max(a: nat, b: nat): nat {
    if a <= b then b else a
  }

  /** Rust's `usize::saturating_sub`: subtraction floored at zero. */
  function SaturatingSub(a: nat, b: nat): (r: nat)
    ensures r == 0 <==> a <= b
    ensures a >= b ==> r + b == a
  {
    if a >= b then a - b else 0
  }

  /** The range `lo..hi + 1` spanning two rows given in either order, as the
      selection transitions build it. */
  function SpanRows(a: nat, b: nat): (r: RowRange)
    ensures r.Contains(a) && r.Contains(b)
    ensures !r.IsEmpty()
    ensures forall row: nat :: r.Contains(row) <==> Min(a, b) <= row <= Max(a, b)
  {
    if a > b then RowRange(b, a + 1) else RowRange(a, b + 1)
  }
}

=== FILE: keys.dfy ===
/** Translation of GUI key events into terminal-engine key codes
    (frozen_term/src/wezterm.rs, `transform_key`). The GUI key and modifier
    types are reduced to the variants the translation distinguishes. */
module Keys {
  import opened GridTypes

  /** Function-key numbers the GUI toolkit defines: F1 to F35. */
  type FunctionNumber = n: nat | 1 <= n <= 35 witness 1

  /** Named GUI keys; `OtherNamed` stands for every named key not listed. */
  datatype NamedKey =
    | Enter | Space | Backspace | Delete
    | ArrowLeft | ArrowRight | ArrowUp | ArrowDown
    | Tab | Escape | Home | End | PageUp | PageDown
    | F(number: FunctionNumber)
    | Pause
    | OtherNamed(name: string)

  datatype Key = Character(text: string) | Named(named: NamedKey) | Unidentified

  datatype Modifiers = Modifiers(shift: bool, control: bool, alt: bool, logo: bool)

  const NoModifiers := Modifiers(false, false, false, false)

  /** Terminal-engine key codes produced by the translation. */
  datatype KeyCode =
    | Char(c: char)
    | EnterKey | BackspaceKey | DeleteKey
    | LeftArrow | RightArrow | UpArrow | DownArrow
    | TabKey | EscapeKey | HomeKey | EndKey | PageUpKey | PageDownKey
    | Function(number: nat)

  /** Terminal-engine modifier flags. */
  datatype ModifierFlag = ShiftFlag | AltFlag | CtrlFlag | SuperFlag

  /** A GUI key event the toolkit can deliver: a character key never carries
      an empty string (the source takes its first character unconditionally). */
  predicate WellFormed(k: Key) {
    k.Character? ==> |k.text| > 0
  }

  /** The named-key arm of `transform_key`: Pause and unlisted keys have no code. */
  function TranslateNamed(n: NamedKey): (r: Option<KeyCode>)
    ensures r.None? <==> n.Pause? || n.OtherNamed?
    ensures n.F? ==> r == Some(Function(n.number))
    ensures r.Some? && r.value.Char? ==> n == Space
  {
    match n
    case Enter => Some(EnterKey)
    case Space => Some(Char(' '))
    case Backspace => Some(BackspaceKey)
    case Delete => Some(DeleteKey)
    case ArrowLeft => Some(LeftArrow)
    case ArrowRight => Some(RightArrow)
    case ArrowUp => Some(UpArrow)
    case ArrowDown => Some(DownArrow)
    case Tab => Some(TabKey)
    case Escape => Some(EscapeKey)
    case Home => Some(HomeKey)
    case End => Some(EndKey)
    case PageUp => Some(PageUpKey)
    case PageDown => Some(PageDownKey)
    case F(n) => Some(Function(n))
    case _ => None
  }

  function TranslateModifiers(m: Modifiers): (flags: set<ModifierFlag>)
    ensures ShiftFlag in flags <==> m.shift
    ensures AltFlag in flags <==> m.alt
    ensures CtrlFlag in flags <==> m.control
    ensures SuperFlag in flags <==> m.logo
  {
    var f0: set<ModifierFlag> := {};
    var f1 := if m.shift then f0 + {ShiftFlag} else f0;
    var f2 := if m.alt then f1 + {AltFlag} else f1;
    var f3 := if m.control then f2 + {CtrlFlag} else f2;
    if m.logo then f3 + {SuperFlag} else f3
  }

  /** `transform_key`: `None` for keys the terminal does not handle. */
  function TransformKey(k: Key, m: Modifiers): (r: Option<(KeyCode, set<ModifierFlag>)>)
    requires WellFormed(k)
    ensures r.None? <==> k.Unidentified? || (k.Named? && (k.named.Pause? || k.named.OtherNamed?))
    ensures k.Character? ==> r == Some((Char(k.text[0]), TranslateModifiers(m)))
    ensures k == Named(Space) ==> r.Some? && r.value.0 == Char(' ')
    ensures k.Named? && k.named.F? ==> r.Some? && r.value.0 == Function(k.named.number)
    ensures r.Some? ==> r.value.1 == TranslateModifiers(m)
  {
    var code :=
      match k
      case Character(s) => Some(Char(s[0]))
      case Named(n) => TranslateNamed(n)
      case Unidentified => None;
    match code
    case None => None
    case Some(c) => Some((c, TranslateModifiers(m)))
  }

  /** A canonical GUI key for each terminal key code (the partner of the
      translation): function numbers outside F1..F35 have none. */
  function CanonicalKey(c: KeyCode): Option<Key> {
    match c
    case Char(ch) => Some(Character([ch]))
    case EnterKey => Some(Named(Enter))
    case BackspaceKey => Some(Named(Backspace))
    case DeleteKey => Some(Named(Delete))
    case LeftArrow => Some(Named(ArrowLeft))
    case RightArrow => Some(Named(ArrowRight))
    case UpArrow => Some(Named(ArrowUp))
    case DownArrow => Some(Named(ArrowDown))
    case TabKey => Some(Named(Tab))
    case EscapeKey => Some(Named(Escape))
    case HomeKey => Some(Named(Home))
    case EndKey => Some(Named(End))
    case PageUpKey => Some(Named(PageUp))
    case PageDownKey => Some(Named(PageDown))
    case Function(n) => if 1 <= n <= 35 then Some(Named(F(n))) else None
  }

  /** Every code the translation produces has a canonical key, and translating
      that key gives the code back, with the same modifiers. */
  lemma TransformKeyRoundTrip(k: Key, m: Modifiers, m2: Modifiers)
    requires WellFormed(k) && TransformKey(k, m).Some?
    ensures var c := TransformKey(k, m).value.0;
            CanonicalKey(c).Some? && WellFormed(CanonicalKey(c).value)
            && TransformKey(CanonicalKey(c).value, m2) == Some((c, TranslateModifiers(m2)))
  {
  }

  /** Distinct named keys translate to distinct codes, and the only named key
      that collides with a character key is Space. */
  lemma NamedKeysInjective(a: NamedKey, b: NamedKey, ch: string)
    requires TranslateNamed(a).Some? && TranslateNamed(a) == TranslateNamed(b)
    ensures a == b
    ensures |ch| > 0 && TransformKey(Named(a), NoModifiers) == TransformKey(Character(ch), NoModifiers) ==>
              a == Space && ch[0] == ' '
  {
  }

  /** Modifier translation is injective: no two modifier states share a flag set. */
  lemma TranslateModifiersInjective(m1: Modifiers, m2: Modifiers)
    requires TranslateModifiers(m1) == TranslateModifiers(m2)
    ensures m1 == m2
  {
    assert ShiftFlag in TranslateModifiers(m1) <==> ShiftFlag in TranslateModifiers(m2);
  }
}

=== FILE: paste.dfy ===
/** Clipboard paste filtering of the wezterm grid (frozen_term/src/wezterm.rs,
    `paste`): the xterm bracketed-paste markers are removed from pasted text so
    that the text cannot end the terminal's bracketed-paste mode early. */
module Paste {

  const Esc: char := '\U{1B}'

  /** `ESC [ 2 0 0 ~`: start of a bracketed paste. */
  const PasteStart: string := [Esc] + "[200~"

  /** `ESC [ 2 0 1 ~`: end of a bracketed paste. */
  const PasteEnd: string := [Esc] + "[201~"

  /** `pat` occurs in `s` at index `i`. */
  predicate OccursAt(s: string, pat: string, i: nat) {
    i + |pat| <= |s| && s[i..i + |pat|] == pat
  }

  /** `pat` occurs somewhere in `s`. */
  predicate Contains(s: string, pat: string) {
    exists i: nat | i <= |s| :: OccursAt(s, pat, i)
  }

  /** Rust's `str::replace(pat, "")`: scans left to right and drops every
      non-overlapping occurrence of `pat`. */
  function RemoveAll(s: string, pat: string): (r: string)
    requires |pat| > 0
    ensures |r| <= |s|
    decreases |s|
  {
    if |s| < |pat| then s
    else if s[..|pat|] == pat then RemoveAll(s[|pat|..], pat)
    else [s[0]] + RemoveAll(s[1..], pat)
  }

  /** `paste` as written: two single-pass removals, start markers first. The
      UTF-8 encoding of the result is left to the caller. */
  function PasteText(text: string): (r: string)
    ensures |r| <= |text|
  {
    RemoveAll(RemoveAll(text, PasteStart), PasteEnd)
  }

  lemma {:induction false} NotContainsUnchanged(s: string, pat: string)
    requires |pat| > 0 && !Contains(s, pat)
    ensures RemoveAll(s, pat) == s
    decreases |s|
  {
    if |s| >= |pat| {
      assert !OccursAt(s, pat, 0);
      assert s[0..0 + |pat|] == s[..|pat|];
      forall i: nat
        ensures !OccursAt(s[1..], pat, i)
      {
        assert !OccursAt(s, pat, i + 1);
        if i + |pat| <= |s[1..]| {
          assert s[1..][i..i + |pat|] == s[i + 1..i + 1 + |pat|];
        }
      }
      NotContainsUnchanged(s[1..], pat);
      assert [s[0]] + s[1..] == s;
    }
  }

  lemma {:induction false} ContainsShrinks(s: string, pat: string)
    requires |pat| > 0 && Contains(s, pat)
    ensures |RemoveAll(s, pat)| < |s|
    decreases |s|
  {
    var i: nat :| i <= |s| && OccursAt(s, pat, i);
    assert i + |pat| <= |s| && s[i..i + |pat|] == pat;
    if s[..|pat|] != pat {
      assert s[0..0 + |pat|] == s[..|pat|];
      assert i != 0;
      assert s[1..][i - 1..i - 1 + |pat|] == s[i..i + |pat|];
      assert OccursAt(s[1..], pat, i - 1);
      ContainsShrinks(s[1..], pat);
    }
  }

  /** Removal changes the text exactly when the pattern occurs in it. */
  lemma RemoveAllChangesIffContains(s: string, pat: string)
    requires |pat| > 0
    ensures RemoveAll(s, pat) == s <==> !Contains(s, pat)
  {
    if Contains(s, pat) {
      ContainsShrinks(s, pat);
    } else {
      NotContainsUnchanged(s, pat);
    }
  }

  /** The scan at the first occurrence: the text before it is kept, the
      occurrence is dropped, and the scan resumes right after it, so later
      occurrences are removed too and overlapping ones are not. With
      NotContainsUnchanged this determines `RemoveAll` on every input. */
  lemma {:induction false} RemoveAllAtFirst(s: string, pat: string, i: nat)
    requires |pat| > 0 && OccursAt(s, pat, i)
    requires forall j: nat :: j < i ==> !OccursAt(s, pat, j)
    ensures RemoveAll(s, pat) == s[..i] + RemoveAll(s[i + |pat|..], pat)
  {
    var a, rest := s[..i], s[i..];
    assert s == a + rest;
    RemoveAllKeepsPrefix(a, rest, pat);
    assert rest == pat + s[i + |pat|..];
    RemoveAllDrops(rest, pat, s[i + |pat|..]);
  }

  /** A prefix in which no occurrence starts is kept as it is. */
  lemma {:induction false} RemoveAllKeepsPrefix(a: string, rest: string, pat: string)
    requires |pat| > 0
    requires forall j: nat :: j < |a| ==> !OccursAt(a + rest, pat, j)
    ensures RemoveAll(a + rest, pat) == a + RemoveAll(rest, pat)
    decreases |a|
  {
    if a == [] {
      assert a + rest == rest;
    } else {
      var s := a + rest;
      if |s| < |pat| {
        ShortUnchanged(s, pat);
        ShortUnchanged(rest, pat);
      } else {
        RemoveAllSkip(s, pat);
        assert s[1..] == a[1..] + rest;
        forall j: nat | j < |a[1..]|
          ensures !OccursAt(a[1..] + rest, pat, j)
        {
          OccursShift(s, pat, j + 1);
        }
        RemoveAllKeepsPrefix(a[1..], rest, pat);
        ConsAssoc(a[0], a[1..], RemoveAll(rest, pat));
        assert [a[0]] + a[1..] == a;
      }
    }
  }

  /** Text shorter than the pattern is left alone. */
  lemma ShortUnchanged(s: string, pat: string)
    requires |pat| > 0 && |s| < |pat|
    ensures RemoveAll(s, pat) == s
  {
  }

  /** One step of the scan where the pattern does not occur at the front. */
  lemma RemoveAllSkip(s: string, pat: string)
    requires |pat| > 0 && |s| >= |pat| && !OccursAt(s, pat, 0)
    ensures RemoveAll(s, pat) == [s[0]] + RemoveAll(s[1..], pat)
  {
    assert s[0..0 + |pat|] == s[..|pat|];
  }

  /** An occurrence at j >= 1 is one at j - 1 once the first character is dropped. */
  lemma OccursShift(s: string, pat: string, j: nat)
    requires 1 <= j && |s| > 0
    ensures OccursAt(s, pat, j) <==> OccursAt(s[1..], pat, j - 1)
  {
    if j + |pat| <= |s| {
      assert s[1..][j - 1..j - 1 + |pat|] == s[j..j + |pat|];
    }
  }

  lemma ConsAssoc(c: char, a: string, b: string)
    ensures [c] + (a + b) == ([c] + a) + b
  {
  }

  /** Every marker of either kind is dropped, each pass scanning left to
      right: two start markers in a row both go (a pass removing only the
      first occurrence would leave one), and so does an end marker. */
  lemma PasteDropsEveryMarker()
    ensures PasteText(PasteStart + PasteStart) == []
    ensures PasteText(PasteStart + "x" + PasteStart + PasteEnd) == "x"
  {
    RemoveAllDrops(PasteStart + PasteStart, PasteStart, PasteStart);
    RemoveAllDrops(PasteStart, PasteStart, []);
    assert RemoveAll([], PasteEnd) == [];
    var text := PasteStart + "x" + PasteStart + PasteEnd;
    RemoveAllDrops(text, PasteStart, "x" + PasteStart + PasteEnd);
    RemoveAllKeeps("x" + PasteStart + PasteEnd, PasteStart, 0);
    assert ("x" + PasteStart + PasteEnd)[1..] == PasteStart + PasteEnd;
    RemoveAllDrops(PasteStart + PasteEnd, PasteStart, PasteEnd);
    RemoveAllKeeps(PasteEnd, PasteStart, 4);
    RemoveAllKeeps("x" + PasteEnd, PasteEnd, 0);
    assert ("x" + PasteEnd)[1..] == PasteEnd;
    RemoveAllDrops(PasteEnd, PasteEnd, []);
  }

  /** A pattern whose first character is missing from the text cannot occur in it. */
  lemma FirstCharAbsent(s: string, pat: string)
    requires |pat| > 0 && pat[0] !in s
    ensures !Contains(s, pat)
  {
    forall i: nat
      ensures !OccursAt(s, pat, i)
    {
      if i + |pat| <= |s| {
        assert s[i..i + |pat|][0] == s[i];
      }
    }
  }

  /** Text without an escape character passes through untouched. */
  lemma PasteWithoutEscUnchanged(text: string)
    requires Esc !in text
    ensures PasteText(text) == text
  {
    FirstCharAbsent(text, PasteStart);
    NotContainsUnchanged(text, PasteStart);
    FirstCharAbsent(text, PasteEnd);
    NotContainsUnchanged(text, PasteEnd);
  }

  /** One step of the scan where the text does not start with the pattern. */
  lemma RemoveAllKeeps(s: string, pat: string, j: nat)
    requires |pat| > 0 && |s| >= |pat| && j < |pat| && s[j] != pat[j]
    ensures RemoveAll(s, pat) == [s[0]] + RemoveAll(s[1..], pat)
  {
    assert s[..|pat|][j] == s[j];
  }

  /** One step of the scan where the text starts with the pattern. */
  lemma RemoveAllDrops(s: string, pat: string, rest: string)
    requires |pat| > 0 && s == pat + rest
    ensures RemoveAll(s, pat) == RemoveAll(rest, pat)
  {
    assert s[..|pat|] == pat && s[|pat|..] == rest;
  }

  /** The text of the counterexample below. */
  const SplicedText: string := [Esc] + "[20" + PasteEnd + "1~"

  lemma SplicedTextHasNoStartMarker()
    ensures RemoveAll(SplicedText, PasteStart) == SplicedText
  {
    var text := SplicedText;
    assert |text| == 12;
    forall i: nat
      ensures !OccursAt(text, PasteStart, i)
    {
      if i + |PasteStart| <= |text| {
        assert text[i..i + |PasteStart|][0] == text[i];
        if i == 0 || i == 4 {
          assert text[i..i + |PasteStart|][4] == text[i + 4];
        }
      }
    }
    NotContainsUnchanged(text, PasteStart);
  }

  lemma SplicedTextEndPass()
    ensures RemoveAll(SplicedText, PasteEnd) == PasteEnd
  {
    var tail := "1~";
    var t4 := PasteEnd + tail;
    var t3 := "0" + t4;
    var t2 := "2" + t3;
    var t1 := "[" + t2;
    assert SplicedText == [Esc] + t1;
    RemoveAllKeeps(SplicedText, PasteEnd, 4);
    RemoveAllKeeps(t1, PasteEnd, 0);
    RemoveAllKeeps(t2, PasteEnd, 0);
    RemoveAllKeeps(t3, PasteEnd, 0);
    RemoveAllDrops(t4, PasteEnd, tail);
    assert SplicedText[1..] == t1 && t1[1..] == t2 && t2[1..] == t3 && t3[1..] == t4;
  }

  /** The two passes do not make the output marker-free: removing the end
      marker out of `ESC[20` `ESC[201~` `1~` splices a new one together. */
  lemma PasteCanLeaveMarker()
    ensures var text := [Esc] + "[20" + PasteEnd + "1~";
            PasteText(text) == PasteEnd && Contains(PasteText(text), PasteEnd)
  {
    SplicedTextHasNoStartMarker();
    SplicedTextEndPass();
    assert OccursAt(PasteEnd, PasteEnd, 0);
  }

  /** One paste pass is the identity exactly on marker-free text, and
      otherwise strictly shortens it. */
  lemma PasteFixpoint(text: string)
    ensures PasteText(text) == text <==> !Contains(text, PasteStart) && !Contains(text, PasteEnd)
    ensures PasteText(text) != text ==> |PasteText(text)| < |text|
  {
    var a := RemoveAll(text, PasteStart);
    RemoveAllChangesIffContains(text, PasteStart);
    RemoveAllChangesIffContains(a, PasteEnd);
    if Contains(text, PasteStart) {
      ContainsShrinks(text, PasteStart);
    } else if Contains(text, PasteEnd) {
      ContainsShrinks(text, PasteEnd);
    }
  }

  /** Corrected paste: repeats the two passes until neither marker is left. */
  function PasteStripped(text: string): (r: string)
    ensures !Contains(r, PasteStart) && !Contains(r, PasteEnd)
    ensures |r| <= |text|
    ensures !Contains(text, PasteStart) && !Contains(text, PasteEnd) ==> r == text
    decreases |text|
  {
    var once := PasteText(text);
    PasteFixpoint(text);
    if once == text then
      text
    else
      PasteStripped(once)
  }
}

=== FILE: prerenderer.dfy ===
/** The row render cache of the wezterm grid
    (frozen_term/src/wezterm/prerenderer.rs). The cache is a window of entries
    over absolute scrollback rows: entry i belongs to row `rowCacheStart + i`.
    An entry remembers the row's sequence number at its last rendering and the
    rendered row (its styled spans and the text shaping the spans need; the
    shaped paragraph itself is a function of these and is not modelled). */
module PreRender {
  import opened GridTypes
  import opened Selections
  import opened Styles

  // ---------------------------------------------------------------------------
  // Grid content as the terminal engine hands it over
  // ---------------------------------------------------------------------------

  datatype Underline = NoUnderline | Single | Double | Curly | Dotted | Dashed

  /** Cell attributes. `other` stands for the remaining attributes (intensity,
      italic, blink, ...): they take part in equality only. */
  datatype CellAttributes = CellAttributes(
    foreground: ColorAttribute,
    background: ColorAttribute,
    reverse: bool,
    underline: Underline,
    other: nat)

  const DefaultAttributes := CellAttributes(Default, Default, false, NoUnderline, 0)

  datatype Cell = Cell(text: string, attrs: CellAttributes)

  /** A scrollback line: its change sequence number and its visible cells. */
  datatype Line = Line(seqno: nat, cells: seq<Cell>)

  // ---------------------------------------------------------------------------
  // Rendered rows and cache entries
  // ---------------------------------------------------------------------------

  datatype Span = Span(text: string, color: Option<Color>, background: Option<Color>, underline: bool)

  datatype Shaping = Basic | Advanced

  datatype CachedRow = CachedRow(shaping: Shaping, spans: seq<Span>)

  /** `ParagraphRow`: `lastUpdateSeqno` 0 means "never rendered". */
  datatype Entry = Entry(lastUpdateSeqno: nat, cached: Option<CachedRow>)

  /** `ParagraphRow::default`. */
  const DefaultEntry := Entry(0, None)

  datatype PreRenderer = PreRenderer(
    rowCacheStart: nat,
    maxCacheSize: nat,
    cacheRows: seq<Entry>,
    style: Style,
    visibleCacheRange: RowRange)

  /** The cache stays within its cap and the visible window indexes inside it. */
  predicate Consistent(p: PreRenderer) {
    && |p.cacheRows| <= p.maxCacheSize
    && p.visibleCacheRange.start <= p.visibleCacheRange.end <= |p.cacheRows|
  }

  /** `WeztermPreRenderer::new`. */
  function New(style: Style): (p: PreRenderer)
    ensures Consistent(p)
    ensures p.cacheRows == [] && p.rowCacheStart == 0 && p.maxCacheSize == 100
    ensures p.visibleCacheRange == RowRange(0, 0) && p.style == style
    ensures VisibleRows(p) == []
  {
    PreRenderer(0, 100, [], style, RowRange(0, 0))
  }

  /** `visible_rows`: the cached rendering of each visible row, in order. */
  function VisibleRows(p: PreRenderer): (r: seq<Option<CachedRow>>)
    requires Consistent(p)
    ensures |r| == p.visibleCacheRange.end - p.visibleCacheRange.start
    ensures forall i :: 0 <= i < |r| ==>
              (r[i].Some? <==> p.cacheRows[p.visibleCacheRange.start + i].cached.Some?)
  {
    seq(p.visibleCacheRange.end - p.visibleCacheRange.start,
        i requires 0 <= i < p.visibleCacheRange.end - p.visibleCacheRange.start =>
          p.cacheRows[p.visibleCacheRange.start + i].cached)
  }

  // ---------------------------------------------------------------------------
  // Spans (push_span)
  // ---------------------------------------------------------------------------

  /** `push_span`: the span for one run of text, or nothing for empty text.
      A run is drawn reversed when exactly one of "the cell is reverse-video"
      and "the cell is selected" holds. */
  function PushSpan(style: Style, text: string, attrs: CellAttributes, selected: bool): (r: Option<Span>)
    ensures r.None? <==> text == ""
    ensures r.Some? ==> r.value.text == text && (r.value.underline <==> attrs.underline != NoUnderline)
    ensures r.Some? && attrs.reverse == selected ==>
              r.value.color == GetColor(style, attrs.foreground)
              && r.value.background == GetColor(style, attrs.background)
    ensures r.Some? && attrs.reverse != selected ==>
              r.value.color == Some(GetBackgroundColor(style, attrs.background))
              && r.value.background == Some(GetForegroundColor(style, attrs.foreground))
  {
    if text == "" then None
    else
      var background := GetColor(style, attrs.background);
      var foreground := GetColor(style, attrs.foreground);
      var (fg, bg) :=
        if attrs.reverse != selected then
          (if background.None? then Some(style.backgroundColor) else background,
           if foreground.None? then Some(style.foregroundColor) else foreground)
        else (foreground, background);
      Some(Span(text, fg, bg, attrs.underline != NoUnderline))
  }

  /** Selecting a reverse-video run cancels the reversal: flipping both flags
      gives the same span. */
  lemma PushSpanReverseXorSelected(style: Style, text: string, attrs: CellAttributes, selected: bool)
    ensures PushSpan(style, text, attrs.(reverse := !attrs.reverse), !selected)
         == PushSpan(style, text, attrs, selected)
  {
  }

  // ---------------------------------------------------------------------------
  // Splitting a line into runs (the cell loop of `update`)
  // ---------------------------------------------------------------------------

  /** A run of cells `from..to` sharing attributes and selection membership. */
  datatype Run = Run(from: nat, to: nat, attrs: CellAttributes, selected: bool)

  function RunKey(r: Run): (CellAttributes, bool) {
    (r.attrs, r.selected)
  }

  /** The attributes and selection membership of cell k of row `row`. */
  function KeyAt(cells: seq<Cell>, row: nat, sel: Option<Selection>, k: nat): (CellAttributes, bool)
    requires k < |cells|
  {
    (cells[k].attrs, IsSelected(sel, SelectionPosition(k, row)))
  }

  /** The cell loop from cell k on, with `cur` the run being accumulated: a new
      run starts whenever the attributes or the selection membership change. */
  function RunsFrom(cells: seq<Cell>, row: nat, sel: Option<Selection>, k: nat, cur: Run): seq<Run>
    requires k <= |cells|
    decreases |cells| - k
  {
    if k == |cells| then [cur]
    else
      var cellSelected := IsSelected(sel, SelectionPosition(k, row));
      if cells[k].attrs != cur.attrs || cellSelected != cur.selected then
        [cur] + RunsFrom(cells, row, sel, k + 1, Run(k, k + 1, cells[k].attrs, cellSelected))
      else
        RunsFrom(cells, row, sel, k + 1, cur.(to := k + 1))
  }

  /** The runs of a line; the loop starts with an empty run of default,
      unselected attributes. */
  function Runs(cells: seq<Cell>, row: nat, sel: Option<Selection>): seq<Run> {
    RunsFrom(cells, row, sel, 0, Run(0, 0, DefaultAttributes, false))
  }

  /** The runs cover `0..n` left to right without gaps or overlaps. */
  predicate Tiles(rs: seq<Run>, n: nat) {
    && |rs| > 0
    && rs[|rs| - 1].to == n
    && (forall j :: 0 <= j < |rs| ==> rs[j].from <= rs[j].to <= n)
    && (forall j :: 0 <= j < |rs| - 1 ==> rs[j].to == rs[j + 1].from)
  }

  /** Every cell of a run has the run's attributes and selection membership. */
  predicate Uniform(cells: seq<Cell>, row: nat, sel: Option<Selection>, rs: seq<Run>) {
    forall j, k | 0 <= j < |rs| && rs[j].from <= k < rs[j].to && k < |cells| ::
      KeyAt(cells, row, sel, k) == RunKey(rs[j])
  }

  /** Neighbouring runs differ, and only the first run may be empty. */
  predicate Maximal(rs: seq<Run>) {
    && (forall j :: 0 <= j < |rs| - 1 ==> RunKey(rs[j]) != RunKey(rs[j + 1]))
    && (forall j :: 1 <= j < |rs| ==> rs[j].from < rs[j].to)
  }

  /** Putting a run in front of well-formed runs it differs from keeps them
      well formed. */
  lemma ConsRunTiles(cur: Run, tail: seq<Run>, n: nat)
    requires Tiles(tail, n) && cur.from <= cur.to == tail[0].from
    ensures Tiles([cur] + tail, n)
  {
    var rs := [cur] + tail;
    assert forall j | 1 <= j < |rs| :: rs[j] == tail[j - 1];
  }

  lemma ConsRunUniform(cells: seq<Cell>, row: nat, sel: Option<Selection>, cur: Run, tail: seq<Run>)
    requires Uniform(cells, row, sel, tail)
    requires forall i | cur.from <= i < cur.to && i < |cells| :: KeyAt(cells, row, sel, i) == RunKey(cur)
    ensures Uniform(cells, row, sel, [cur] + tail)
  {
    var rs := [cur] + tail;
    assert forall j | 1 <= j < |rs| :: rs[j] == tail[j - 1];
  }

  lemma ConsRunMaximal(cur: Run, tail: seq<Run>)
    requires Maximal(tail) && |tail| > 0 && tail[0].from < tail[0].to
    requires RunKey(cur) != RunKey(tail[0])
    ensures Maximal([cur] + tail)
  {
    var rs := [cur] + tail;
    assert forall j | 1 <= j < |rs| :: rs[j] == tail[j - 1];
  }

  lemma {:induction false} RunsFromShape(cells: seq<Cell>, row: nat, sel: Option<Selection>, k: nat, cur: Run)
    requires k <= |cells| && cur.from <= cur.to == k
    requires forall i | cur.from <= i < k :: KeyAt(cells, row, sel, i) == RunKey(cur)
    ensures var rs := RunsFrom(cells, row, sel, k, cur);
            && Tiles(rs, |cells|) && Uniform(cells, row, sel, rs) && Maximal(rs)
            && rs[0].from == cur.from && rs[0].to >= cur.to && RunKey(rs[0]) == RunKey(cur)
    decreases |cells| - k
  {
    if k < |cells| {
      var cellSelected := IsSelected(sel, SelectionPosition(k, row));
      assert KeyAt(cells, row, sel, k) == (cells[k].attrs, cellSelected);
      if cells[k].attrs != cur.attrs || cellSelected != cur.selected {
        var next := Run(k, k + 1, cells[k].attrs, cellSelected);
        RunsFromShape(cells, row, sel, k + 1, next);
        var tail := RunsFrom(cells, row, sel, k + 1, next);
        assert RunsFrom(cells, row, sel, k, cur) == [cur] + tail;
        ConsRunTiles(cur, tail, |cells|);
        ConsRunUniform(cells, row, sel, cur, tail);
        ConsRunMaximal(cur, tail);
      } else {
        RunsFromShape(cells, row, sel, k + 1, cur.(to := k + 1));
      }
    }
  }

  /** Reference characterisation of the split: the runs tile the line, are
      uniform, differ from their neighbours, and begin with the loop's
      initial (default, unselected) run. */
  lemma RunsCharacterisation(cells: seq<Cell>, row: nat, sel: Option<Selection>)
    ensures var rs := Runs(cells, row, sel);
            && Tiles(rs, |cells|) && rs[0].from == 0
            && Uniform(cells, row, sel, rs) && Maximal(rs)
            && RunKey(rs[0]) == (DefaultAttributes, false)
  {
    RunsFromShape(cells, row, sel, 0, Run(0, 0, DefaultAttributes, false));
  }

  // ---------------------------------------------------------------------------
  // Text of cells and spans
  // ---------------------------------------------------------------------------

  /** The cells' strings, concatenated in order. */
  function CellsText(cells: seq<Cell>): string {
    if cells == [] then "" else cells[0].text + CellsText(cells[1..])
  }

  function SpanTexts(spans: seq<Span>): string {
    if spans == [] then "" else spans[0].text + SpanTexts(spans[1..])
  }

  lemma {:induction false} CellsTextAppend(a: seq<Cell>, b: seq<Cell>)
    ensures CellsText(a + b) == CellsText(a) + CellsText(b)
    decreases |a|
  {
    if a != [] {
      assert (a + b)[0] == a[0];
      assert (a + b)[1..] == a[1..] + b;
      CellsTextAppend(a[1..], b);
      assert CellsText(a + b) == a[0].text + (CellsText(a[1..]) + CellsText(b));
    } else {
      assert a + b == b;
    }
  }

  lemma {:induction false} SpanTextsAppend(a: seq<Span>, b: seq<Span>)
    ensures SpanTexts(a + b) == SpanTexts(a) + SpanTexts(b)
    decreases |a|
  {
    if a != [] {
      assert (a + b)[0] == a[0];
      assert (a + b)[1..] == a[1..] + b;
      SpanTextsAppend(a[1..], b);
      assert SpanTexts(a + b) == a[0].text + (SpanTexts(a[1..]) + SpanTexts(b));
    } else {
      assert a + b == b;
    }
  }

  lemma {:induction false} CellsTextEmpty(cells: seq<Cell>)
    ensures CellsText(cells) == "" <==> forall k :: 0 <= k < |cells| ==> cells[k].text == ""
    decreases |cells|
  {
    if cells != [] {
      CellsTextEmpty(cells[1..]);
      assert forall k :: 1 <= k < |cells| ==> cells[k] == cells[1..][k - 1];
    }
  }

  lemma {:induction false} SpanTextsEmpty(spans: seq<Span>)
    requires forall j :: 0 <= j < |spans| ==> spans[j].text != ""
    ensures SpanTexts(spans) == "" <==> spans == []
  {
    if spans != [] {
      assert |SpanTexts(spans)| >= |spans[0].text| > 0;
    }
  }

  function OptionToSeq(o: Option<Span>): seq<Span> {
    if o.Some? then [o.value] else []
  }

  predicate RunsWithin(rs: seq<Run>, n: nat) {
    forall j :: 0 <= j < |rs| ==> rs[j].from <= rs[j].to <= n
  }

  /** The spans `push_span` produces for a sequence of runs. */
  function SpansOf(style: Style, cells: seq<Cell>, rs: seq<Run>): seq<Span>
    requires RunsWithin(rs, |cells|)
    decreases |rs|
  {
    if rs == [] then []
    else
      OptionToSeq(PushSpan(style, CellsText(cells[rs[0].from..rs[0].to]), rs[0].attrs, rs[0].selected))
      + SpansOf(style, cells, rs[1..])
  }

  lemma {:induction false} SpansOfNonEmpty(style: Style, cells: seq<Cell>, rs: seq<Run>)
    requires RunsWithin(rs, |cells|)
    ensures forall j :: 0 <= j < |SpansOf(style, cells, rs)| ==> SpansOf(style, cells, rs)[j].text != ""
    decreases |rs|
  {
    if rs != [] {
      SpansOfNonEmpty(style, cells, rs[1..]);
    }
  }

  /** The span of one run carries exactly the run's text. */
  lemma RunSpanText(style: Style, text: string, attrs: CellAttributes, selected: bool)
    ensures SpanTexts(OptionToSeq(PushSpan(style, text, attrs, selected))) == text
  {
  }

  lemma TilesTail(rs: seq<Run>, n: nat)
    requires Tiles(rs, n) && |rs| > 1
    ensures Tiles(rs[1..], n) && rs[1..][0].from == rs[0].to
  {
    assert forall j :: 0 <= j < |rs[1..]| ==> rs[1..][j] == rs[j + 1];
  }

  lemma CellsTextSplit(cells: seq<Cell>, a: nat, b: nat)
    requires a <= b <= |cells|
    ensures CellsText(cells[a..]) == CellsText(cells[a..b]) + CellsText(cells[b..])
  {
    assert cells[a..] == cells[a..b] + cells[b..];
    CellsTextAppend(cells[a..b], cells[b..]);
  }

  lemma {:induction false} SpansOfText(style: Style, cells: seq<Cell>, rs: seq<Run>)
    requires Tiles(rs, |cells|)
    ensures SpanTexts(SpansOf(style, cells, rs)) == CellsText(cells[rs[0].from..])
    decreases |rs|
  {
    var r := rs[0];
    var text := CellsText(cells[r.from..r.to]);
    var head := OptionToSeq(PushSpan(style, text, r.attrs, r.selected));
    var rest := SpansOf(style, cells, rs[1..]);
    RunSpanText(style, text, r.attrs, r.selected);
    SpanTextsAppend(head, rest);
    CellsTextSplit(cells, r.from, r.to);
    if |rs| == 1 {
      assert cells[r.to..] == [];
    } else {
      TilesTail(rs, |cells|);
      SpansOfText(style, cells, rs[1..]);
    }
  }

  /** Whether some cell string contains a non-ASCII character. */
  predicate IsAscii(s: string) {
    forall i :: 0 <= i < |s| ==> s[i] < 128 as char
  }

  /** The `needs_advanced` flag of the cell loop. */
  function NeedsAdvanced(cells: seq<Cell>): (r: bool)
    ensures r <==> exists k :: 0 <= k < |cells| && !IsAscii(cells[k].text)
  {
    if cells == [] then false
    else
      var rest := NeedsAdvanced(cells[1..]);
      assert forall k :: 1 <= k < |cells| ==> cells[k] == cells[1..][k - 1];
      !IsAscii(cells[0].text) || rest
  }

  /** Renders one line: its spans, with advanced shaping when some cell is
      non-ASCII; `None` when the line produced no span at all. */
  function RenderRow(style: Style, sel: Option<Selection>, row: nat, cells: seq<Cell>): Option<CachedRow> {
    var rs := Runs(cells, row, sel);
    RunsCharacterisation(cells, row, sel);
    var spans := SpansOf(style, cells, rs);
    var shaping := if NeedsAdvanced(cells) then Advanced else Basic;
    if spans != [] then Some(CachedRow(shaping, spans)) else None
  }

  /** A row renders to nothing exactly when all its cells are empty; otherwise
      its spans are non-empty and spell the line's text, and it asks for
      advanced shaping exactly when some cell is non-ASCII. */
  lemma RenderRowSpec(style: Style, sel: Option<Selection>, row: nat, cells: seq<Cell>)
    ensures var r := RenderRow(style, sel, row, cells);
            && (r.None? <==> forall k :: 0 <= k < |cells| ==> cells[k].text == "")
            && (r.Some? ==> SpanTexts(r.value.spans) == CellsText(cells))
            && (r.Some? ==> (r.value.shaping == Advanced <==> exists k :: 0 <= k < |cells| && !IsAscii(cells[k].text)))
            && (r.Some? ==> forall j :: 0 <= j < |r.value.spans| ==> r.value.spans[j].text != "")
  {
    var rs := Runs(cells, row, sel);
    RunsCharacterisation(cells, row, sel);
    var spans := SpansOf(style, cells, rs);
    SpansOfNonEmpty(style, cells, rs);
    SpansOfText(style, cells, rs);
    assert cells[0..] == cells;
    SpanTextsEmpty(spans);
    CellsTextEmpty(cells);
  }

  /** What a span looks like, apart from its text: colour, background, underline. */
  function SpanLook(sp: Span): (Option<Color>, Option<Color>, bool) {
    (sp.color, sp.background, sp.underline)
  }

  /** Some run of a tiling holds cell k. */
  lemma {:induction false} TilesCover(rs: seq<Run>, n: nat, k: nat, j: nat)
    requires Tiles(rs, n) && j < |rs| && rs[j].from <= k < n
    ensures exists i :: j <= i < |rs| && rs[i].from <= k < rs[i].to
    decreases |rs| - j
  {
    if k >= rs[j].to {
      assert j + 1 < |rs|;
      TilesCover(rs, n, k, j + 1);
    }
  }

  /** The spans of two run sequences, one after the other. */
  lemma {:induction false} SpansOfAppend(style: Style, cells: seq<Cell>, r1: seq<Run>, r2: seq<Run>)
    requires RunsWithin(r1, |cells|) && RunsWithin(r2, |cells|) && RunsWithin(r1 + r2, |cells|)
    ensures SpansOf(style, cells, r1 + r2) == SpansOf(style, cells, r1) + SpansOf(style, cells, r2)
    decreases |r1|
  {
    if r1 == [] {
      assert r1 + r2 == r2;
    } else {
      assert (r1 + r2)[0] == r1[0];
      assert (r1 + r2)[1..] == r1[1..] + r2;
      SpansOfAppend(style, cells, r1[1..], r2);
    }
  }

  /** The runs of a tiling from run j on still tile the rest of the line. */
  lemma TilesSuffix(rs: seq<Run>, n: nat, j: nat)
    requires Tiles(rs, n) && j < |rs|
    ensures Tiles(rs[j..], n) && rs[j..][0] == rs[j]
  {
    assert forall i :: 0 <= i < |rs[j..]| ==> rs[j..][i] == rs[j + i];
  }

  /** The text of a line is that of the cells before column f followed by that of the rest. */
  lemma CellsTextCut(cells: seq<Cell>, f: nat)
    requires f <= |cells|
    ensures CellsText(cells[0..]) == CellsText(cells[..f]) + CellsText(cells[f..])
  {
    assert cells[0..] == cells[..f] + cells[f..];
    CellsTextAppend(cells[..f], cells[f..]);
  }

  /** A common suffix cancels. */
  lemma AppendCancel(x: string, y: string, t: string)
    requires x + t == y + t
    ensures x == y
  {
    assert |x| == |y|;
    assert x == (x + t)[..|x|];
    assert y == (y + t)[..|y|];
  }

  /** The spans of a run sequence split at run j: those of the earlier runs,
      then those of run j and the rest. */
  lemma SpansOfSplit(style: Style, cells: seq<Cell>, rs: seq<Run>, j: nat)
    requires RunsWithin(rs, |cells|) && j <= |rs|
    ensures RunsWithin(rs[..j], |cells|) && RunsWithin(rs[j..], |cells|)
    ensures SpansOf(style, cells, rs) == SpansOf(style, cells, rs[..j]) + SpansOf(style, cells, rs[j..])
  {
    var pre, post := rs[..j], rs[j..];
    assert rs == pre + post;
    assert forall i :: 0 <= i < |pre| ==> pre[i] == rs[i];
    assert forall i :: 0 <= i < |post| ==> post[i] == rs[j + i];
    SpansOfAppend(style, cells, pre, post);
  }

  /** The spans of the runs before run j carry exactly the text of the cells
      before it. */
  lemma SpansBeforeText(style: Style, cells: seq<Cell>, rs: seq<Run>, j: nat)
    requires Tiles(rs, |cells|) && rs[0].from == 0 && j < |rs|
    ensures SpanTexts(SpansOf(style, cells, rs[..j])) == CellsText(cells[..rs[j].from])
  {
    var f := rs[j].from;
    TilesSuffix(rs, |cells|, j);
    SpansOfSplit(style, cells, rs, j);
    var a, b := SpansOf(style, cells, rs[..j]), SpansOf(style, cells, rs[j..]);
    SpansOfText(style, cells, rs);
    SpansOfText(style, cells, rs[j..]);
    SpanTextsAppend(a, b);
    CellsTextCut(cells, f);
    AppendCancel(SpanTexts(a), CellsText(cells[..f]), CellsText(cells[f..]));
  }

  /** Where the span of run j sits among the row's spans: at the position `m`
      the earlier runs fill, with the earlier spans carrying exactly the text
      of the cells before the run. */
  lemma SpanOfRun(style: Style, cells: seq<Cell>, rs: seq<Run>, j: nat)
    requires Tiles(rs, |cells|) && rs[0].from == 0 && j < |rs|
    requires PushSpan(style, CellsText(cells[rs[j].from..rs[j].to]), rs[j].attrs, rs[j].selected).Some?
    ensures var spans, m := SpansOf(style, cells, rs), |SpansOf(style, cells, rs[..j])|;
            && m < |spans|
            && spans[m] == PushSpan(style, CellsText(cells[rs[j].from..rs[j].to]), rs[j].attrs, rs[j].selected).value
            && SpanTexts(spans[..m]) == CellsText(cells[..rs[j].from])
  {
    SpansOfSplit(style, cells, rs, j);
    SpansBeforeText(style, cells, rs, j);
    var a, post := SpansOf(style, cells, rs[..j]), rs[j..];
    assert post[0] == rs[j];
    var sp := PushSpan(style, CellsText(cells[rs[j].from..rs[j].to]), rs[j].attrs, rs[j].selected).value;
    assert SpansOf(style, cells, post) == [sp] + SpansOf(style, cells, post[1..]);
    var spans := SpansOf(style, cells, rs);
    assert spans[|a|] == sp;
    assert spans[..|a|] == a;
  }

  /** A run's text is non-empty when one of its cells is. */
  lemma RunTextNonEmpty(cells: seq<Cell>, from: nat, to: nat, k: nat)
    requires from <= k < to <= |cells| && cells[k].text != ""
    ensures CellsText(cells[from..to]) != ""
  {
    CellsTextEmpty(cells[from..to]);
    assert cells[from..to][k - from] == cells[k];
  }

  /** The look of a span does not depend on its text. */
  lemma LookIgnoresText(style: Style, t: string, u: string, attrs: CellAttributes, selected: bool)
    requires t != "" && u != ""
    ensures SpanLook(PushSpan(style, t, attrs, selected).value) == SpanLook(PushSpan(style, u, attrs, selected).value)
  {
  }

  /** A rendered row holds the spans of the line's runs, and there is one
      exactly when those spans are not empty. */
  lemma RenderRowHoldsSpans(style: Style, sel: Option<Selection>, row: nat, cells: seq<Cell>)
    ensures Tiles(Runs(cells, row, sel), |cells|)
    ensures var r, spans := RenderRow(style, sel, row, cells), SpansOf(style, cells, Runs(cells, row, sel));
            && (r.Some? <==> spans != [])
            && (r.Some? ==> r.value.spans == spans)
  {
    RunsCharacterisation(cells, row, sel);
  }

  /** The positional span fact of a non-empty cell, over the spans of the
      line's runs. */
  lemma CellInSpans(style: Style, sel: Option<Selection>, row: nat, cells: seq<Cell>, k: nat)
    requires k < |cells| && cells[k].text != ""
    ensures Tiles(Runs(cells, row, sel), |cells|)
    ensures var spans := SpansOf(style, cells, Runs(cells, row, sel));
            var look := SpanLook(PushSpan(style, cells[k].text, cells[k].attrs,
                                          IsSelected(sel, SelectionPosition(k, row))).value);
            exists i, a, b :: 0 <= i < |spans| && 0 <= a <= k < b <= |cells|
              && SpanTexts(spans[..i]) == CellsText(cells[..a])
              && spans[i].text == CellsText(cells[a..b])
              && SpanLook(spans[i]) == look
  {
    var rs := Runs(cells, row, sel);
    RunsCharacterisation(cells, row, sel);
    TilesCover(rs, |cells|, k, 0);
    var j :| 0 <= j < |rs| && rs[j].from <= k < rs[j].to;
    assert KeyAt(cells, row, sel, k) == RunKey(rs[j]);
    var text := CellsText(cells[rs[j].from..rs[j].to]);
    RunTextNonEmpty(cells, rs[j].from, rs[j].to, k);
    SpanOfRun(style, cells, rs, j);
    LookIgnoresText(style, text, cells[k].text, rs[j].attrs, rs[j].selected);
    var spans := SpansOf(style, cells, rs);
    var m := |SpansOf(style, cells, rs[..j])|;
    assert spans[m].text == text;
  }

  /** Every non-empty cell is drawn in the span that holds it: span i covers
      cells `a..b` around cell k, the spans before it carry exactly the text
      of the cells before `a`, and span i has the colours `push_span` gives
      for the cell's own attributes and selection membership, so selected
      cells are drawn with the colours swapped (reverse video cancelled for
      reversed cells). */
  lemma RenderRowCellLook(style: Style, sel: Option<Selection>, row: nat, cells: seq<Cell>, k: nat)
    requires k < |cells| && cells[k].text != ""
    ensures var r := RenderRow(style, sel, row, cells);
            var look := SpanLook(PushSpan(style, cells[k].text, cells[k].attrs,
                                          IsSelected(sel, SelectionPosition(k, row))).value);
            && r.Some?
            && exists i, a, b :: 0 <= i < |r.value.spans| && 0 <= a <= k < b <= |cells|
                 && SpanTexts(r.value.spans[..i]) == CellsText(cells[..a])
                 && r.value.spans[i].text == CellsText(cells[a..b])
                 && SpanLook(r.value.spans[i]) == look
  {
    CellInSpans(style, sel, row, cells, k);
    RenderRowHoldsSpans(style, sel, row, cells);
  }

  // ---------------------------------------------------------------------------
  // Cache alignment
  // ---------------------------------------------------------------------------

  function Defaults(n: nat): (r: seq<Entry>)
    ensures |r| == n && forall i :: 0 <= i < n ==> r[i] == DefaultEntry
  {
    seq(n, _ => DefaultEntry)
  }

  /** Lines 62-74 as written: grow the cache at the end up to `end`. */
  function GrowForwardAsWritten(rows: seq<Entry>, base: nat, free: nat, end: nat): (seq<Entry>, nat) {
    var cacheEnd := base + |rows|;
    if end > cacheEnd then
      var missing := end - cacheEnd;
      var missingSpace := SaturatingSub(missing, free);
      var kept := if missingSpace >= |rows| then [] else if missingSpace > 0 then rows[missingSpace..] else rows;
      (kept + Defaults(missing), base + missingSpace)
    else
      (rows, base)
  }

  /** Lines 76-89 as written: grow the cache at the front down to `start`. */
  function GrowBackwardAsWritten(rows: seq<Entry>, base: nat, free: nat, start: nat): (seq<Entry>, nat) {
    if start < base then
      var missing := base - start;
      var missingSpace := SaturatingSub(missing, free);
      var kept := if missingSpace >= |rows| then [] else if missingSpace > 0 then rows[..|rows| - missingSpace] else rows;
      (Defaults(missing) + kept, base - missingSpace)
    else
      (rows, base)
  }

  /** Width of `usize` on the 64-bit targets the terminal runs on. */
  const UsizeModulus: nat := 0x1_0000_0000_0000_0000

  /** Lines 59-89 as written, with release-build arithmetic: `free_space` is
      computed once, before either branch, and a cache longer than its cap
      makes `max_cache_size - len` wrap around (a debug build panics there). */
  function AlignAsWritten(rows: seq<Entry>, base: nat, max: nat, range: RowRange): (seq<Entry>, nat) {
    var free := (max - |rows|) % UsizeModulus;
    var (rows1, base1) := GrowForwardAsWritten(rows, base, free, range.end);
    GrowBackwardAsWritten(rows1, base1, free, range.start)
  }

  /** The entry a cache window holds for `row`, or a default entry outside it. */
  function EntryAt(rows: seq<Entry>, base: nat, row: nat): Entry {
    if base <= row < base + |rows| then rows[row - base] else DefaultEntry
  }

  /** `(rows', base')` re-indexes `(rows, base)`: a row kept in both windows
      keeps its entry, and a row new to the window gets a default entry. */
  predicate Reindexes(rows: seq<Entry>, base: nat, rows': seq<Entry>, base': nat) {
    forall row: nat | base' <= row < base' + |rows'| :: EntryAt(rows', base', row) == EntryAt(rows, base, row)
  }

  /** Corrected forward growth: at most `max` default entries are pushed. */
  function GrowForward(rows: seq<Entry>, base: nat, max: nat, end: nat): (r: (seq<Entry>, nat))
    requires |rows| <= max
    ensures |r.0| <= max
    ensures r.1 + |r.0| == Max(end, base + |rows|)
    ensures base <= r.1
    ensures end > base + |rows| ==> r.1 + max >= end && (|rows| > 0 ==> r.1 + max >= base + |rows|)
    ensures end > base + |rows| && base + |rows| + max >= end ==> |r.0| == Min(max, end - base)
    ensures Reindexes(rows, base, r.0, r.1)
  {
    var free := max - |rows|;
    var cacheEnd := base + |rows|;
    if end > cacheEnd then
      var missing := end - cacheEnd;
      var missingSpace := SaturatingSub(missing, free);
      var kept := if missingSpace >= |rows| then [] else if missingSpace > 0 then rows[missingSpace..] else rows;
      var rows' := kept + Defaults(Min(missing, max));
      var base' := base + missingSpace;
      assert base' + |rows'| == end;
      assert Reindexes(rows, base, rows', base') by {
        forall row: nat | base' <= row < base' + |rows'|
          ensures EntryAt(rows', base', row) == EntryAt(rows, base, row)
        {
          if row - base' < |kept| {
            assert rows'[row - base'] == kept[row - base'];
          }
        }
      }
      (rows', base')
    else
      (rows, base)
  }

  /** Corrected backward growth: the base moves back by every entry pushed in
      front, and at most `max` entries are pushed. */
  function GrowBackward(rows: seq<Entry>, base: nat, max: nat, start: nat): (r: (seq<Entry>, nat))
    requires |rows| <= max
    ensures |r.0| <= max
    ensures r.1 == (if start < base then start else base)
    ensures r.1 + |r.0| >= Min(base + |rows|, r.1 + max)
    ensures r.1 + |r.0| <= Max(base + |rows|, r.1 + max)
    ensures Reindexes(rows, base, r.0, r.1)
  {
    var free := max - |rows|;
    if start < base then
      var missing := base - start;
      var missingSpace := SaturatingSub(missing, free);
      var kept := if missingSpace >= |rows| then [] else if missingSpace > 0 then rows[..|rows| - missingSpace] else rows;
      var pushed := Min(missing, max);
      var rows' := Defaults(pushed) + kept;
      var base' := base - missing;
      assert Reindexes(rows, base, rows', base') by {
        forall row: nat | base' <= row < base' + |rows'|
          ensures EntryAt(rows', base', row) == EntryAt(rows, base, row)
        {
          if row - base' >= pushed {
            assert rows'[row - base'] == kept[row - base' - pushed];
          }
        }
      }
      (rows', base')
    else
      (rows, base)
  }

  /** Corrected alignment: afterwards the cache window covers `range`, stays
      within its cap, and every row keeps its entry or gets a default one. */
  function Align(rows: seq<Entry>, base: nat, max: nat, range: RowRange): (r: (seq<Entry>, nat))
    requires |rows| <= max
    requires range.start <= range.end <= range.start + max
    ensures |r.0| <= max
    ensures r.1 <= range.start && range.end <= r.1 + |r.0|
    ensures Reindexes(rows, base, r.0, r.1)
  {
    var (rows1, base1) := GrowForward(rows, base, max, range.end);
    var (rows2, base2) := GrowBackward(rows1, base1, max, range.start);
    assert Reindexes(rows, base, rows2, base2) by {
      forall row: nat | base2 <= row < base2 + |rows2|
        ensures EntryAt(rows2, base2, row) == EntryAt(rows, base, row)
      {
        assert EntryAt(rows2, base2, row) == EntryAt(rows1, base1, row);
        if base1 <= row < base1 + |rows1| {
          assert EntryAt(rows1, base1, row) == EntryAt(rows, base, row);
        } else {
          assert EntryAt(rows, base, row) == DefaultEntry by {
            if base <= row < base + |rows| {
              assert false;
            }
          }
        }
      }
    }
    (rows2, base2)
  }

  /** A window that already covers the range is left as it is. */
  lemma AlignCoveredIsNoOp(rows: seq<Entry>, base: nat, max: nat, range: RowRange)
    requires |rows| <= max && range.start <= range.end <= range.start + max
    requires base <= range.start && range.end <= base + |rows|
    ensures Align(rows, base, max, range) == (rows, base)
  {
  }

  // ---------------------------------------------------------------------------
  // Properties of the alignment as written
  // ---------------------------------------------------------------------------

  /** Forward growth as written, with the cache within its cap and a jump of
      at most `max` rows: the end is reached, the cap holds, surviving entries
      keep their rows and new entries are defaults. */
  lemma GrowForwardAsWrittenBounded(rows: seq<Entry>, base: nat, max: nat, end: nat)
    requires |rows| <= max
    requires end <= base + |rows| + max
    ensures var (rows', base') := GrowForwardAsWritten(rows, base, max - |rows|, end);
            && base' + |rows'| >= end
            && |rows'| <= max
            && Reindexes(rows, base, rows', base')
  {
    var free := max - |rows|;
    if end > base + |rows| {
      var missing := end - (base + |rows|);
      assert Min(missing, max) == missing;
    }
    assert GrowForwardAsWritten(rows, base, free, end) == GrowForward(rows, base, max, end);
  }

  /** The cache shapes `update` can reach from `new` by jumps of at most the
      cap: the window still starts at row 0, or the cache is full. */
  predicate ReachableShape(rows: seq<Entry>, base: nat, max: nat) {
    |rows| <= max && (base == 0 || |rows| == max)
  }

  /** Forward growth as written agrees with the corrected one on reachable
      shapes, and leaves either the old base or a full cache ending at `end`. */
  lemma ForwardAgreesOnReachable(rows: seq<Entry>, base: nat, max: nat, end: nat)
    requires ReachableShape(rows, base, max) && end <= base + |rows| + max
    ensures var r := GrowForward(rows, base, max, end);
            && GrowForwardAsWritten(rows, base, max - |rows|, end) == r
            && ReachableShape(r.0, r.1, max)
            && (r.1 == base || (|r.0| == max && r.1 + max == end))
  {
    var free := max - |rows|;
    if end > base + |rows| {
      var missing := end - (base + |rows|);
      assert Min(missing, max) == missing;
    }
  }

  /** Backward growth as written agrees with the corrected one when it does
      not fire, or when the cache is full and the jump is at most the cap. */
  lemma BackwardAgreesOnReachable(rows: seq<Entry>, base: nat, max: nat, free: nat, start: nat)
    requires ReachableShape(rows, base, max)
    requires start >= base || (free == 0 && |rows| == max && base <= start + max)
    ensures var r := GrowBackward(rows, base, max, start);
            GrowBackwardAsWritten(rows, base, free, start) == r && ReachableShape(r.0, r.1, max)
  {
    if start < base {
      assert Min(base - start, max) == base - start;
    }
  }

  /** On every cache shape reachable from `new` with jumps of at most the cap,
      the alignment as written is the corrected one, and the reachable shape is
      kept; so the corrected `Update` behaves as the source does there. */
  lemma AsWrittenAgreesOnReachable(rows: seq<Entry>, base: nat, max: nat, range: RowRange)
    requires ReachableShape(rows, base, max) && max < UsizeModulus
    requires range.start <= range.end <= range.start + max
    requires range.end <= base + |rows| + max && base <= range.start + max
    ensures AlignAsWritten(rows, base, max, range) == Align(rows, base, max, range)
    ensures var r := Align(rows, base, max, range);
            ReachableShape(r.0, r.1, max)
  {
    var free := max - |rows|;
    assert (max - |rows|) % UsizeModulus == free;
    ForwardAgreesOnReachable(rows, base, max, range.end);
    var f := GrowForward(rows, base, max, range.end);
    assert GrowForwardAsWritten(rows, base, free, range.end) == f;
    if |rows| < max {
      assert base == 0;
      assert range.start >= f.1;
      BackwardAgreesOnReachable(f.0, f.1, max, free, range.start);
    } else {
      BackwardAgreesOnReachable(f.0, f.1, max, 0, range.start);
    }
  }

  /** After the overflow of `ForwardJumpOverflowsCap` (500 entries from row
      424, cap 100), free space wraps to a huge value. Scrolling up to rows
      423..447 then pushes one entry in front without moving the base back:
      the window still starts at row 424 (so `range.start - row_cache_start`
      underflows) and every entry is now filed one row too late. */
  lemma BackwardGrowthMisaligns(rows: seq<Entry>)
    requires |rows| == 500
    ensures var (rows', base') := AlignAsWritten(rows, 424, 100, RowRange(423, 447));
            && base' == 424 > 423
            && |rows'| == 501
            && forall row :: 424 <= row < 924 ==> EntryAt(rows', base', row + 1) == EntryAt(rows, 424, row)
  {
    var free := (100 - 500) % UsizeModulus;
    assert free > 1;
    var (rows', base') := AlignAsWritten(rows, 424, 100, RowRange(423, 447));
    assert rows' == Defaults(1) + rows;
    forall row | 424 <= row < 924
      ensures EntryAt(rows', base', row + 1) == EntryAt(rows, 424, row)
    {
      assert rows'[row + 1 - 424] == rows[row - 424];
    }
  }

  /** A jump of 500 rows back over a full cache pushes 500 entries in front,
      five times the cap. */
  lemma BackwardJumpOverflowsCap()
    ensures var (rows', base') := AlignAsWritten(Defaults(100), 500, 100, RowRange(0, 24));
            |rows'| == 500 && |rows'| > 100 && base' == 0
  {
  }

  /** A 120-row screen over an empty cache of cap 100: forward growth drops
      20 rows of base and pushes 120 entries, then backward growth pushes 20
      more in front without moving the base back. The window starts at row 20,
      after the first visible row, and holds 140 entries. */
  lemma TallScreenMisaligns()
    ensures var (rows', base') := AlignAsWritten([], 0, 100, RowRange(0, 120));
            |rows'| == 140 && base' == 20 && base' > 0
  {
  }

  /** Corrected alignment for a screen taller than the cap: the cap is raised to
      the screen height for this alignment, so the window starts at the first
      visible row and covers the screen; on screens within the cap it is `Align`. */
  function AlignTall(rows: seq<Entry>, base: nat, max: nat, range: RowRange): (r: (seq<Entry>, nat))
    requires |rows| <= max && range.start <= range.end
    ensures |r.0| <= Max(max, range.end - range.start)
    ensures r.1 <= range.start && range.end <= r.1 + |r.0|
    ensures Reindexes(rows, base, r.0, r.1)
    ensures range.end <= range.start + max ==> r == Align(rows, base, max, range)
  {
    Align(rows, base, Max(max, range.end - range.start), range)
  }

  /** A jump of 500 rows past a 24-row cache pushes 500 entries, five times
      the cap; the next update's `max_cache_size - len` then underflows. */
  lemma ForwardJumpOverflowsCap()
    ensures var (rows', base') := AlignAsWritten(Defaults(24), 0, 100, RowRange(500, 524));
            |rows'| == 500 && |rows'| > 100 && base' == 424
  {
    var free := (100 - 24) % UsizeModulus;
    assert free == 76;
  }

  // ---------------------------------------------------------------------------
  // update
  // ---------------------------------------------------------------------------

  /** The sequence-number rule for one row (lines 100-102, 166-168) with the
      line's rendering `rendered` supplied: the entry is replaced only when
      the line's sequence number moved past the stored one. */
  function Rerender(e: Entry, line: Line, rendered: Option<CachedRow>): (r: Entry)
    ensures r.lastUpdateSeqno == Max(e.lastUpdateSeqno, line.seqno)
    ensures line.seqno <= e.lastUpdateSeqno ==> r == e
    ensures line.seqno > e.lastUpdateSeqno ==> r.cached == rendered
  {
    if line.seqno <= e.lastUpdateSeqno then e
    else Entry(line.seqno, rendered)
  }

  /** The sequence-number rule for the line shown at `row`: a row is
      rendered again only when its sequence number moved past the stored one. */
  function RefreshEntry(style: Style, sel: Option<Selection>, row: nat, e: Entry, line: Line): (r: Entry)
    ensures r.lastUpdateSeqno == Max(e.lastUpdateSeqno, line.seqno)
    ensures line.seqno <= e.lastUpdateSeqno ==> r == e
  {
    Rerender(e, line, RenderRow(style, sel, row, line.cells))
  }

  /** The renderings of `lines`, the first of which is shown at `firstRow`.
      Only the stale ones are kept by `Refresh`, so computing all of them up
      front gives the same cache as rendering on demand. */
  function Renderings(style: Style, sel: Option<Selection>, firstRow: nat, lines: seq<Line>): (r: seq<Option<CachedRow>>)
    ensures |r| == |lines|
  {
    seq(|lines|, i requires 0 <= i < |lines| => RenderRow(style, sel, firstRow + i, lines[i].cells))
  }

  /** Refreshes the entries of the lines handed over, the first of which sits
      at cache index `firstIndex`; `renders[i]` is the rendering of line i. */
  function Refresh(rows: seq<Entry>, firstIndex: nat, lines: seq<Line>, renders: seq<Option<CachedRow>>): (r: seq<Entry>)
    requires firstIndex + |lines| <= |rows| && |renders| == |lines|
    ensures |r| == |rows|
  {
    seq(|rows|, i requires 0 <= i < |rows| =>
      if firstIndex <= i < firstIndex + |lines|
      then Rerender(rows[i], lines[i - firstIndex], renders[i - firstIndex])
      else rows[i])
  }

  /** What `update` needs of its caller: a cache within its cap, a visible
      range no longer than the cap, and at most one line per visible row. */
  predicate UpdateArgs(p: PreRenderer, range: RowRange, lines: seq<Line>) {
    && Consistent(p)
    && range.start <= range.end <= range.start + p.maxCacheSize
    && |lines| <= range.end - range.start
  }

  /** The entry of `row` in the cache window of `p`. */
  function EntryOf(p: PreRenderer, row: nat): Entry {
    EntryAt(p.cacheRows, p.rowCacheStart, row)
  }

  predicate InWindow(p: PreRenderer, row: nat) {
    p.rowCacheStart <= row < p.rowCacheStart + |p.cacheRows|
  }

  /** `update` with the renderings of the lines supplied. */
  function UpdateWith(p: PreRenderer, range: RowRange, lines: seq<Line>, renders: seq<Option<CachedRow>>): (r: PreRenderer)
    requires UpdateArgs(p, range, lines) && |renders| == |lines|
    ensures Consistent(r)
    ensures r.maxCacheSize == p.maxCacheSize && r.style == p.style
    ensures r.rowCacheStart <= range.start && range.end <= r.rowCacheStart + |r.cacheRows|
    ensures r.visibleCacheRange == RowRange(range.start - r.rowCacheStart, range.end - r.rowCacheStart)
  {
    var aligned := Align(p.cacheRows, p.rowCacheStart, p.maxCacheSize, range);
    var base := aligned.1;
    p.(rowCacheStart := base,
       cacheRows := Refresh(aligned.0, range.start - base, lines, renders),
       visibleCacheRange := RowRange(range.start - base, range.end - base))
  }

  /** `update`: aligns the cache on the visible range `range` and re-renders
      the lines whose sequence number moved past the stored one. The result
      stays within its cap and its visible window is `range`. */
  function Update(p: PreRenderer, range: RowRange, sel: Option<Selection>, lines: seq<Line>): (r: PreRenderer)
    requires UpdateArgs(p, range, lines)
    ensures Consistent(r)
    ensures r.maxCacheSize == p.maxCacheSize && r.style == p.style
    ensures r.rowCacheStart <= range.start && range.end <= r.rowCacheStart + |r.cacheRows|
    ensures r.visibleCacheRange == RowRange(range.start - r.rowCacheStart, range.end - r.rowCacheStart)
  {
    UpdateWith(p, range, lines, Renderings(p.style, sel, range.start, lines))
  }

  /** What a refresh does: rows outside the lines' window keep their entries;
      the entry of line i takes the larger sequence number, stays as it was
      when the line has not moved, and otherwise becomes the line's number
      with rendering i. */
  lemma RefreshEntries(rows: seq<Entry>, firstIndex: nat, lines: seq<Line>, renders: seq<Option<CachedRow>>)
    requires firstIndex + |lines| <= |rows| && |renders| == |lines|
    ensures var r := Refresh(rows, firstIndex, lines, renders);
            && (forall k :: 0 <= k < |rows| && !(firstIndex <= k < firstIndex + |lines|) ==> r[k] == rows[k])
            && (forall i :: 0 <= i < |lines| ==>
                var before, after := rows[firstIndex + i], r[firstIndex + i];
                && after.lastUpdateSeqno == Max(before.lastUpdateSeqno, lines[i].seqno)
                && (lines[i].seqno <= before.lastUpdateSeqno ==> after == before)
                && (lines[i].seqno > before.lastUpdateSeqno ==> after == Entry(lines[i].seqno, renders[i])))
  {
  }

  /** Entry k after a refresh. */
  lemma RefreshAt(rows: seq<Entry>, firstIndex: nat, lines: seq<Line>, renders: seq<Option<CachedRow>>, k: nat)
    requires firstIndex + |lines| <= |rows| && |renders| == |lines| && k < |rows|
    ensures Refresh(rows, firstIndex, lines, renders)[k]
         == if firstIndex <= k < firstIndex + |lines|
            then Rerender(rows[k], lines[k - firstIndex], renders[k - firstIndex])
            else rows[k]
  {
  }

  /** One row of the new window after `UpdateWith`. */
  lemma UpdateWithRow(p: PreRenderer, range: RowRange, lines: seq<Line>, renders: seq<Option<CachedRow>>, row: nat)
    requires UpdateArgs(p, range, lines) && |renders| == |lines|
    requires InWindow(UpdateWith(p, range, lines, renders), row)
    ensures EntryOf(UpdateWith(p, range, lines, renders), row)
         == if range.start <= row < range.start + |lines|
            then Rerender(EntryOf(p, row), lines[row - range.start], renders[row - range.start])
            else EntryOf(p, row)
  {
    var aligned := Align(p.cacheRows, p.rowCacheStart, p.maxCacheSize, range);
    var rows, base := aligned.0, aligned.1;
    var firstIndex := range.start - base;
    var r := UpdateWith(p, range, lines, renders);
    assert r.rowCacheStart == base && r.cacheRows == Refresh(rows, firstIndex, lines, renders);
    var k := row - base;
    assert EntryOf(r, row) == r.cacheRows[k];
    assert EntryAt(rows, base, row) == rows[k] == EntryOf(p, row);
    RefreshAt(rows, firstIndex, lines, renders, k);
    if range.start <= row < range.start + |lines| {
      assert k - firstIndex == row - range.start;
    }
  }

  /** The effect of `update` on one row of the new window: a row with a line
      goes through the sequence-number rule starting from the entry it had
      before (a default one if it was outside the old window); every other
      row keeps its entry. */
  lemma UpdateRow(p: PreRenderer, range: RowRange, sel: Option<Selection>, lines: seq<Line>, row: nat)
    requires UpdateArgs(p, range, lines)
    requires InWindow(Update(p, range, sel, lines), row)
    ensures EntryOf(Update(p, range, sel, lines), row)
         == if range.start <= row < range.start + |lines|
            then RefreshEntry(p.style, sel, row, EntryOf(p, row), lines[row - range.start])
            else EntryOf(p, row)
  {
    var renders := Renderings(p.style, sel, range.start, lines);
    if range.start <= row < range.start + |lines| {
      var i := row - range.start;
      UpdateWithLine(p, range, lines, renders, i);
      assert renders[i] == RenderRow(p.style, sel, range.start + i, lines[i].cells);
    } else {
      UpdateWithRow(p, range, lines, renders, row);
    }
  }

  /** Row `row` must be rendered again for `line`. */
  predicate Stale(p: PreRenderer, row: nat, line: Line) {
    line.seqno > EntryOf(p, row).lastUpdateSeqno
  }

  /** The row of line i after `UpdateWith` goes through the sequence-number
      rule from its old entry. */
  lemma UpdateWithLine(p: PreRenderer, range: RowRange, lines: seq<Line>, renders: seq<Option<CachedRow>>, i: nat)
    requires UpdateArgs(p, range, lines) && |renders| == |lines| && i < |lines|
    ensures EntryOf(UpdateWith(p, range, lines, renders), range.start + i)
         == Rerender(EntryOf(p, range.start + i), lines[i], renders[i])
  {
    var aligned := Align(p.cacheRows, p.rowCacheStart, p.maxCacheSize, range);
    var rows, base := aligned.0, aligned.1;
    var firstIndex := range.start - base;
    RefreshAt(rows, firstIndex, lines, renders, firstIndex + i);
    var r := UpdateWith(p, range, lines, renders);
    assert r.rowCacheStart == base;
    assert r.cacheRows == Refresh(rows, firstIndex, lines, renders);
    assert EntryOf(r, range.start + i) == r.cacheRows[firstIndex + i];
    assert EntryAt(rows, base, range.start + i) == rows[firstIndex + i];
  }

  /** Rows whose sequence number did not move are left untouched, and every
      stale line is rendered afresh. */
  lemma UpdateRerendersExactlyStale(p: PreRenderer, range: RowRange, sel: Option<Selection>, lines: seq<Line>, i: nat)
    requires UpdateArgs(p, range, lines) && i < |lines|
    ensures var r := Update(p, range, sel, lines);
            && (!Stale(p, range.start + i, lines[i]) ==> EntryOf(r, range.start + i) == EntryOf(p, range.start + i))
            && (Stale(p, range.start + i, lines[i]) ==>
                  EntryOf(r, range.start + i) == Entry(lines[i].seqno, RenderRow(p.style, sel, range.start + i, lines[i].cells)))
  {
    var renders := Renderings(p.style, sel, range.start, lines);
    UpdateWithLine(p, range, lines, renders, i);
    assert renders[i] == RenderRow(p.style, sel, range.start + i, lines[i].cells);
  }

  /** Refreshing with lines none of which is newer than its entry changes nothing. */
  lemma RefreshUnchanged(rows: seq<Entry>, firstIndex: nat, lines: seq<Line>, renders: seq<Option<CachedRow>>)
    requires firstIndex + |lines| <= |rows| && |renders| == |lines|
    requires forall i :: 0 <= i < |lines| ==> lines[i].seqno <= rows[firstIndex + i].lastUpdateSeqno
    ensures Refresh(rows, firstIndex, lines, renders) == rows
  {
    var r := Refresh(rows, firstIndex, lines, renders);
    forall k | 0 <= k < |rows|
      ensures r[k] == rows[k]
    {
      if firstIndex <= k < firstIndex + |lines| {
        assert rows[k] == rows[firstIndex + (k - firstIndex)];
      }
    }
  }

  /** A refreshed entry is at least as new as its line. */
  lemma RefreshedSeqno(rows: seq<Entry>, firstIndex: nat, lines: seq<Line>, renders: seq<Option<CachedRow>>, i: nat)
    requires firstIndex + |lines| <= |rows| && |renders| == |lines| && i < |lines|
    ensures Refresh(rows, firstIndex, lines, renders)[firstIndex + i].lastUpdateSeqno >= lines[i].seqno
  {
    assert firstIndex + i - firstIndex == i;
  }

  /** After `UpdateWith` no line handed over is stale any more. */
  lemma UpdateWithLeavesNothingStale(p: PreRenderer, range: RowRange, lines: seq<Line>, renders: seq<Option<CachedRow>>, i: nat)
    requires UpdateArgs(p, range, lines) && |renders| == |lines| && i < |lines|
    ensures var r := UpdateWith(p, range, lines, renders);
            && !Stale(r, range.start + i, lines[i])
            && lines[i].seqno <= r.cacheRows[range.start - r.rowCacheStart + i].lastUpdateSeqno
  {
    var aligned := Align(p.cacheRows, p.rowCacheStart, p.maxCacheSize, range);
    var rows, base := aligned.0, aligned.1;
    RefreshedSeqno(rows, range.start - base, lines, renders, i);
    var r := UpdateWith(p, range, lines, renders);
    assert r.rowCacheStart == base;
    assert r.cacheRows == Refresh(rows, range.start - base, lines, renders);
    assert EntryOf(r, range.start + i) == r.cacheRows[range.start - base + i];
  }

  /** After an update no line handed over is stale any more. */
  lemma UpdateLeavesNothingStale(p: PreRenderer, range: RowRange, sel: Option<Selection>, lines: seq<Line>, i: nat)
    requires UpdateArgs(p, range, lines) && i < |lines|
    ensures var r := Update(p, range, sel, lines);
            && !Stale(r, range.start + i, lines[i])
            && lines[i].seqno <= r.cacheRows[range.start - r.rowCacheStart + i].lastUpdateSeqno
  {
    UpdateWithLeavesNothingStale(p, range, lines, Renderings(p.style, sel, range.start, lines), i);
  }

  /** `UpdateWith` over a window that already shows the range and holds no
      stale entry is the identity. */
  lemma UpdateWithCoveredFresh(q: PreRenderer, range: RowRange, lines: seq<Line>, renders: seq<Option<CachedRow>>)
    requires UpdateArgs(q, range, lines) && |renders| == |lines|
    requires q.rowCacheStart <= range.start && range.end <= q.rowCacheStart + |q.cacheRows|
    requires q.visibleCacheRange == RowRange(range.start - q.rowCacheStart, range.end - q.rowCacheStart)
    requires forall i :: 0 <= i < |lines| ==> lines[i].seqno <= q.cacheRows[range.start - q.rowCacheStart + i].lastUpdateSeqno
    ensures UpdateWith(q, range, lines, renders) == q
  {
    AlignCoveredIsNoOp(q.cacheRows, q.rowCacheStart, q.maxCacheSize, range);
    RefreshUnchanged(q.cacheRows, range.start - q.rowCacheStart, lines, renders);
    UpdateWithFixedPoint(q, range, lines, renders);
  }

  /** An update whose alignment and refresh both leave the window alone is the identity. */
  lemma UpdateWithFixedPoint(q: PreRenderer, range: RowRange, lines: seq<Line>, renders: seq<Option<CachedRow>>)
    requires UpdateArgs(q, range, lines) && |renders| == |lines|
    requires q.rowCacheStart <= range.start
    requires q.visibleCacheRange == RowRange(range.start - q.rowCacheStart, range.end - q.rowCacheStart)
    requires Align(q.cacheRows, q.rowCacheStart, q.maxCacheSize, range) == (q.cacheRows, q.rowCacheStart)
    requires Refresh(q.cacheRows, range.start - q.rowCacheStart, lines, renders) == q.cacheRows
    ensures UpdateWith(q, range, lines, renders) == q
  {
  }

  /** An update over a window that already shows the range and holds no
      stale entry is the identity. */
  lemma UpdateCoveredFresh(q: PreRenderer, range: RowRange, sel: Option<Selection>, lines: seq<Line>)
    requires UpdateArgs(q, range, lines)
    requires q.rowCacheStart <= range.start && range.end <= q.rowCacheStart + |q.cacheRows|
    requires q.visibleCacheRange == RowRange(range.start - q.rowCacheStart, range.end - q.rowCacheStart)
    requires forall i :: 0 <= i < |lines| ==> lines[i].seqno <= q.cacheRows[range.start - q.rowCacheStart + i].lastUpdateSeqno
    ensures Update(q, range, sel, lines) == q
  {
    UpdateWithCoveredFresh(q, range, lines, Renderings(q.style, sel, range.start, lines));
  }

  /** A second update with the same lines re-renders no row and changes nothing. */
  lemma {:induction false} UpdateIdempotent(p: PreRenderer, range: RowRange, sel: Option<Selection>, lines: seq<Line>)
    requires UpdateArgs(p, range, lines)
    ensures var r := Update(p, range, sel, lines);
            && UpdateArgs(r, range, lines)
            && (forall i :: 0 <= i < |lines| ==> !Stale(r, range.start + i, lines[i]))
            && Update(r, range, sel, lines) == r
  {
    var renders := Renderings(p.style, sel, range.start, lines);
    var r := UpdateWith(p, range, lines, renders);
    forall i | 0 <= i < |lines|
      ensures !Stale(r, range.start + i, lines[i])
      ensures lines[i].seqno <= r.cacheRows[range.start - r.rowCacheStart + i].lastUpdateSeqno
    {
      UpdateWithLeavesNothingStale(p, range, lines, renders, i);
    }
    UpdateWithCoveredFresh(r, range, lines, renders);
  }

  /** Visible row i is the cached rendering of the i-th row of the visible window. */
  lemma VisibleRowAt(p: PreRenderer, i: nat)
    requires Consistent(p) && i < p.visibleCacheRange.end - p.visibleCacheRange.start
    ensures VisibleRows(p)[i] == EntryOf(p, p.rowCacheStart + p.visibleCacheRange.start + i).cached
  {
  }

  /** After an update the visible rows are, in order, the renderings held for
      the rows of the range; a stale line shows its new rendering. */
  lemma VisibleRowsAfterUpdate(p: PreRenderer, range: RowRange, sel: Option<Selection>, lines: seq<Line>, i: nat)
    requires UpdateArgs(p, range, lines) && i < |lines|
    ensures var r := Update(p, range, sel, lines);
            && |VisibleRows(r)| == range.end - range.start
            && VisibleRows(r)[i] == EntryOf(r, range.start + i).cached
            && (Stale(p, range.start + i, lines[i]) ==>
                  VisibleRows(r)[i] == RenderRow(p.style, sel, range.start + i, lines[i].cells))
  {
    var r := Update(p, range, sel, lines);
    VisibleRowAt(r, i);
    UpdateRerendersExactlyStale(p, range, sel, lines, i);
  }

  /** A never-rendered entry is rebuilt by the first line with a non-zero
      sequence number. */
  lemma DefaultEntryRebuilt(style: Style, sel: Option<Selection>, row: nat, line: Line)
    ensures RefreshEntry(style, sel, row, DefaultEntry, line) == DefaultEntry <==> line.seqno == 0
  {
  }
}

=== FILE: selection.dfy ===
/** The mouse-selection state machine of the wezterm grid
    (frozen_term/src/wezterm/selection.rs). Positions are absolute scrollback
    coordinates; the moving end of an in-progress selection is kept relative to
    the viewport and re-resolved against the current scroll offset. */
module Selections {
  import opened GridTypes

  /** An absolute grid coordinate: column x, scrollback row y. */
  datatype SelectionPosition = SelectionPosition(x: nat, y: nat)

  /** Converts a viewport position to an absolute one at the given offset. */
  function FromVisible(v: VisiblePosition, offset: nat): (p: SelectionPosition)
    ensures p.x == v.x
    ensures p.y - offset == v.y
  {
    SelectionPosition(v.x, v.y + offset)
  }

  /** The four steps; `Idle` is the source's `SelectionStep::None`. */
  datatype SelectionStep =
    | Idle
    | Starting(origin: SelectionPosition)
    | Selecting(start: SelectionPosition, visibleEnd: VisiblePosition)
    | Selected(start: SelectionPosition, end: SelectionPosition)

  datatype SelectionState = SelectionState(step: SelectionStep, scrollOffset: nat)

  /** A normalised selection: `start` comes first in (y, x) order. */
  datatype Selection = Selection(start: SelectionPosition, end: SelectionPosition)

  /** Lexicographic (row, then column) order on positions. */
  predicate Before(p: SelectionPosition, q: SelectionPosition) {
    p.y < q.y || (p.y == q.y && p.x <= q.x)
  }

  function NewState(): (s: SelectionState)
    ensures s.step == Idle && s.scrollOffset == 0
    ensures !IsActive(s) && GetSelection(s) == None
  {
    SelectionState(Idle, 0)
  }

  /** `Selection::new`: orders the two points. */
  function NewSelection(a: SelectionPosition, b: SelectionPosition): (sel: Selection)
    ensures Before(sel.start, sel.end)
    ensures (sel.start == a && sel.end == b) || (sel.start == b && sel.end == a)
  {
    if a.y < b.y || (a.y == b.y && a.x <= b.x) then Selection(a, b) else Selection(b, a)
  }

  /** `is_selected`: whether a cell lies in the (normalised) selection. */
  function IsSelected(sel: Option<Selection>, pos: SelectionPosition): bool {
    match sel
    case None => false
    case Some(s) =>
      if pos.y < s.start.y || pos.y > s.end.y then false
      else if pos.y == s.start.y && pos.y == s.end.y then s.start.x <= pos.x <= s.end.x
      else if pos.y == s.start.y then pos.x >= s.start.x
      else if pos.y == s.end.y then pos.x <= s.end.x
      else true
  }

  /** The absolute end of the step's selection, resolved at the state's offset. */
  function ResolvedEnd(s: SelectionState): SelectionPosition
    requires s.step.Selecting? || s.step.Selected?
  {
    if s.step.Selecting? then FromVisible(s.step.visibleEnd, s.scrollOffset) else s.step.end
  }

  function IsActive(s: SelectionState): (r: bool)
    ensures r <==> s.step.Starting? || s.step.Selecting?
  {
    match s.step
    case Selecting(_, _) => true
    case Starting(_) => true
    case _ => false
  }

  function GetSelection(s: SelectionState): (r: Option<Selection>)
    ensures r.Some? <==> s.step.Selecting? || s.step.Selected?
    ensures r.Some? ==> Before(r.value.start, r.value.end)
    ensures r.Some? ==> r.value == NewSelection(s.step.start, ResolvedEnd(s))
  {
    match s.step
    case Selecting(start, end) => Some(NewSelection(start, FromVisible(end, s.scrollOffset)))
    case Selected(start, end) => Some(NewSelection(start, end))
    case _ => None
  }

  /** Pointer-down: begins a new selection and reports the rows of the one it replaces. */
  function Start(s: SelectionState, pos: VisiblePosition): (r: (SelectionState, Option<RowRange>))
    ensures r.0 == SelectionState(Starting(FromVisible(pos, s.scrollOffset)), s.scrollOffset)
    ensures r.1.Some? <==> GetSelection(s).Some?
    ensures r.1.Some? ==>
              var sel := GetSelection(s).value;
              r.1.value == RowRange(sel.start.y, sel.end.y + 1)
  {
    var invalidate :=
      match s.step
      case Selecting(start, end) =>
        var e := FromVisible(end, s.scrollOffset);
        Some(SpanRows(start.y, e.y))
      case Selected(start, end) => Some(SpanRows(start.y, end.y))
      case _ => None;
    (SelectionState(Starting(FromVisible(pos, s.scrollOffset)), s.scrollOffset), invalidate)
  }

  /** Pointer-move: extends an in-progress selection; other steps ignore it. */
  function MoveEnd(s: SelectionState, pos: VisiblePosition): (r: (SelectionState, Option<RowRange>))
    ensures !IsActive(s) ==> r == (s, None)
    ensures IsActive(s) ==>
              && r.0.scrollOffset == s.scrollOffset
              && r.0.step == Selecting(if s.step.Starting? then s.step.origin else s.step.start, pos)
              && r.1.Some? && !r.1.value.IsEmpty()
              && r.1.value.Contains(ResolvedEnd(r.0).y)
              && r.1.value.Contains(if s.step.Starting? then s.step.origin.y else ResolvedEnd(s).y)
              && var oldRow := if s.step.Starting? then s.step.origin.y else ResolvedEnd(s).y;
                 var newRow := ResolvedEnd(r.0).y;
                 r.1.value == RowRange(Min(oldRow, newRow), Max(oldRow, newRow) + 1)
  {
    match s.step
    case Selecting(start, end) =>
      var oldLine := FromVisible(end, s.scrollOffset).y;
      var newLine := FromVisible(pos, s.scrollOffset).y;
      (SelectionState(Selecting(start, pos), s.scrollOffset), Some(SpanRows(newLine, oldLine)))
    case Starting(start) =>
      var oldLine := start.y;
      var newLine := FromVisible(pos, s.scrollOffset).y;
      (SelectionState(Selecting(start, pos), s.scrollOffset), Some(SpanRows(newLine, oldLine)))
    case _ => (s, None)
  }

  /** Pointer-up: commits an in-progress selection at the current offset. */
  function Finish(s: SelectionState): (r: SelectionState)
    ensures r.scrollOffset == s.scrollOffset
    ensures s.step.Selecting? ==> r.step.Selected? && GetSelection(r) == GetSelection(s)
    ensures s.step.Starting? ==> r.step == Idle
    ensures !IsActive(s) ==> r == s
    ensures !IsActive(r)
  {
    match s.step
    case Selecting(start, end) =>
      SelectionState(Selected(start, FromVisible(end, s.scrollOffset)), s.scrollOffset)
    case Starting(_) => SelectionState(Idle, s.scrollOffset)
    case _ => s
  }

  /** Records a new scroll offset; only an in-progress end moves with it. */
  function SetScroll(s: SelectionState, offset: nat): (r: (SelectionState, Option<RowRange>))
    ensures r.0 == s.(scrollOffset := offset)
    ensures r.1.Some? <==> s.step.Selecting? && offset != s.scrollOffset
    ensures r.1.Some? ==>
              && r.1.value.Contains(ResolvedEnd(s).y)
              && r.1.value.Contains(ResolvedEnd(r.0).y)
              && var oldRow, newRow := ResolvedEnd(s).y, ResolvedEnd(r.0).y;
                 r.1.value == RowRange(Min(oldRow, newRow), Max(oldRow, newRow) + 1)
  {
    var range :=
      match s.step
      case Selecting(_, end) =>
        var oldLine := FromVisible(end, s.scrollOffset).y;
        var newLine := FromVisible(end, offset).y;
        if oldLine == newLine then None
        else if oldLine > newLine then Some(RowRange(newLine, oldLine + 1))
        else Some(RowRange(oldLine, newLine + 1))
      case _ => None;
    (s.(scrollOffset := offset), range)
  }

  // ---------------------------------------------------------------------------
  // Properties relating the operations
  // ---------------------------------------------------------------------------

  /** Converting at two offsets differs only in the row, by the offset difference. */
  lemma FromVisibleShift(v: VisiblePosition, a: nat, b: nat)
    ensures FromVisible(v, a).x == FromVisible(v, b).x
    ensures FromVisible(v, a).y + b == FromVisible(v, b).y + a
  {
  }

  /** Normalising is insensitive to argument order. */
  lemma NewSelectionSymmetric(a: SelectionPosition, b: SelectionPosition)
    ensures NewSelection(a, b) == NewSelection(b, a)
  {
  }

  /** Reference definition: a position is selected iff it lies between the two
      ends in (y, x) order. Holds for any (even un-normalised) selection. */
  lemma IsSelectedIsLexInterval(sel: Selection, pos: SelectionPosition)
    ensures IsSelected(Some(sel), pos) <==> Before(sel.start, pos) && Before(pos, sel.end)
  {
  }

  /** Swapping the ends selects exactly the same cells. */
  lemma IsSelectedSwapInvariant(a: SelectionPosition, b: SelectionPosition, pos: SelectionPosition)
    ensures IsSelected(Some(NewSelection(a, b)), pos) == IsSelected(Some(NewSelection(b, a)), pos)
  {
    NewSelectionSymmetric(a, b);
  }

  /** The row range `Start` invalidates covers every cell of the old selection. */
  lemma StartInvalidatesOldSelection(s: SelectionState, pos: VisiblePosition, cell: SelectionPosition)
    requires IsSelected(GetSelection(s), cell)
    ensures Start(s, pos).1.Some? && Start(s, pos).1.value.Contains(cell.y)
  {
  }

  /** A committed selection reads back identically at every scroll offset. */
  lemma SelectedSurvivesScroll(s: SelectionState, offset: nat)
    requires s.step.Selected?
    ensures GetSelection(SetScroll(s, offset).0) == GetSelection(s)
    ensures SetScroll(s, offset).1 == None
  {
  }

  /** Finishing is idempotent. */
  lemma FinishIdempotent(s: SelectionState)
    ensures Finish(Finish(s)) == Finish(s)
  {
  }

  /** Scrolling an in-progress selection and then finishing commits the end
      resolved at the new offset; the start never moves. */
  lemma ScrollThenFinish(s: SelectionState, offset: nat)
    requires s.step.Selecting?
    ensures var f := Finish(SetScroll(s, offset).0);
            f.step == Selected(s.step.start, FromVisible(s.step.visibleEnd, offset))
  {
  }

  /** Pressing, dragging and releasing selects the cells between the press and
      the release point, both resolved at the same offset. */
  lemma PressDragRelease(s: SelectionState, p: VisiblePosition, q: VisiblePosition, cell: SelectionPosition)
    ensures var s3 := Finish(MoveEnd(Start(s, p).0, q).0);
            var a := FromVisible(p, s.scrollOffset);
            var b := FromVisible(q, s.scrollOffset);
            && s3.step == Selected(a, b)
            && (IsSelected(GetSelection(s3), cell) <==>
                  (Before(a, cell) && Before(cell, b)) || (Before(b, cell) && Before(cell, a)))
  {
    var a := FromVisible(p, s.scrollOffset);
    var b := FromVisible(q, s.scrollOffset);
    IsSelectedIsLexInterval(NewSelection(a, b), cell);
  }
}

=== FILE: style.dfy ===
/** Terminal styling and colour resolution (frozen_term/src/terminal/style.rs).
    Colours are kept as four real components; the float conversion between the
    terminal engine's colour tuple and the GUI colour copies them unchanged. */
module Styles {
  import opened GridTypes

  /** A GUI colour (red, green, blue, alpha). */
  datatype Color = Color(r: real, g: real, b: real, a: real)

  /** The terminal engine's colour tuple. */
  datatype SrgbaTuple = SrgbaTuple(r: real, g: real, b: real, a: real)

  newtype u8 = x: int | 0 <= x < 256

  /** A 256-entry colour table. */
  type Palette256 = p: seq<Color> | |p| == 256 witness seq(256, _ => Color(0.0, 0.0, 0.0, 1.0))

  /** A cell colour as the terminal engine stores it. */
  datatype ColorAttribute =
    | TrueColorWithPaletteFallback(color: SrgbaTuple, fallback: u8)
    | TrueColorWithDefaultFallback(color: SrgbaTuple)
    | PaletteIndex(index: u8)
    | Default

  /** Line height, padding and font are carried through unchanged. */
  datatype LineHeight = Relative(factor: real) | Absolute(pixels: real)
  datatype Padding = Padding(top: real, right: real, bottom: real, left: real)
  datatype Font = Font(family: string)

  datatype Style = Style(
    lineHeight: LineHeight,
    textSize: Option<real>,
    padding: Padding,
    backgroundColor: Color,
    foregroundColor: Color,
    font: Font,
    palette: Palette256)

  /** `Color::from_rgba(tuple.to_tuple_rgba())`. */
  function ToColor(t: SrgbaTuple): Color {
    Color(t.r, t.g, t.b, t.a)
  }

  /** `Palette256::from_wezterm`. */
  function FromWezterm(palette: seq<SrgbaTuple>): (r: Palette256)
    requires |palette| == 256
    ensures forall i :: 0 <= i < 256 ==> r[i] == ToColor(palette[i])
  {
    seq(256, i requires 0 <= i < 256 => ToColor(palette[i]))
  }

  // Builder setters: each replaces one field and leaves the others alone.

  /** The seven fields of a style. */
  datatype Field = LineHeightField | TextSizeField | PaddingField | ForegroundField
                 | BackgroundField | FontField | PaletteField

  /** `s` and `t` hold the same value in field `f`. */
  predicate Agree(s: Style, t: Style, f: Field) {
    match f
    case LineHeightField => s.lineHeight == t.lineHeight
    case TextSizeField => s.textSize == t.textSize
    case PaddingField => s.padding == t.padding
    case ForegroundField => s.foregroundColor == t.foregroundColor
    case BackgroundField => s.backgroundColor == t.backgroundColor
    case FontField => s.font == t.font
    case PaletteField => s.palette == t.palette
  }

  function WithLineHeight(s: Style, lineHeight: LineHeight): (r: Style)
    ensures r.lineHeight == lineHeight
    ensures forall f :: f != LineHeightField ==> Agree(r, s, f)
  {
    s.(lineHeight := lineHeight)
  }

  function WithTextSize(s: Style, size: real): (r: Style)
    ensures r.textSize == Some(size)
    ensures forall f :: f != TextSizeField ==> Agree(r, s, f)
  {
    s.(textSize := Some(size))
  }

  function WithPadding(s: Style, padding: Padding): (r: Style)
    ensures r.padding == padding
    ensures forall f :: f != PaddingField ==> Agree(r, s, f)
  {
    s.(padding := padding)
  }

  function WithForegroundColor(s: Style, color: Color): (r: Style)
    ensures r.foregroundColor == color
    ensures forall f :: f != ForegroundField ==> Agree(r, s, f)
  {
    s.(foregroundColor := color)
  }

  function WithBackgroundColor(s: Style, color: Color): (r: Style)
    ensures r.backgroundColor == color
    ensures forall f :: f != BackgroundField ==> Agree(r, s, f)
  {
    s.(backgroundColor := color)
  }

  function WithFont(s: Style, font: Font): (r: Style)
    ensures r.font == font
    ensures forall f :: f != FontField ==> Agree(r, s, f)
  {
    s.(font := font)
  }

  function WithPalette(s: Style, palette: Palette256): (r: Style)
    ensures r.palette == palette
    ensures forall f :: f != PaletteField ==> Agree(r, s, f)
  {
    s.(palette := palette)
  }

  /** One builder call, as a value: the setter and its argument. */
  datatype Setter =
    | SetLineHeight(lineHeight: LineHeight)
    | SetTextSize(size: real)
    | SetPadding(padding: Padding)
    | SetForegroundColor(foreground: Color)
    | SetBackgroundColor(background: Color)
    | SetFont(font: Font)
    | SetPalette(palette: Palette256)

  /** The field a setter writes. */
  function FieldOf(st: Setter): Field {
    match st
    case SetLineHeight(_) => LineHeightField
    case SetTextSize(_) => TextSizeField
    case SetPadding(_) => PaddingField
    case SetForegroundColor(_) => ForegroundField
    case SetBackgroundColor(_) => BackgroundField
    case SetFont(_) => FontField
    case SetPalette(_) => PaletteField
  }

  function Apply(s: Style, st: Setter): Style {
    match st
    case SetLineHeight(lh) => WithLineHeight(s, lh)
    case SetTextSize(size) => WithTextSize(s, size)
    case SetPadding(pad) => WithPadding(s, pad)
    case SetForegroundColor(c) => WithForegroundColor(s, c)
    case SetBackgroundColor(c) => WithBackgroundColor(s, c)
    case SetFont(font) => WithFont(s, font)
    case SetPalette(p) => WithPalette(s, p)
  }

  /** Resolves a cell colour; `Default` has no colour of its own. */
  function GetColor(s: Style, c: ColorAttribute): (r: Option<Color>)
    ensures r.None? <==> c.Default?
    ensures c.PaletteIndex? ==> r == Some(s.palette[c.index as int])
    ensures c.TrueColorWithPaletteFallback? || c.TrueColorWithDefaultFallback? ==>
              r == Some(ToColor(c.color))
  {
    match c
    case TrueColorWithPaletteFallback(t, _) => Some(ToColor(t))
    case TrueColorWithDefaultFallback(t) => Some(ToColor(t))
    case PaletteIndex(i) => Some(s.palette[i as int])
    case Default => None
  }

  function GetForegroundColor(s: Style, c: ColorAttribute): (r: Color)
    ensures c.Default? <==> GetColor(s, c).None?
    ensures GetColor(s, c).Some? ==> r == GetColor(s, c).value
    ensures c.Default? ==> r == s.foregroundColor
  {
    match GetColor(s, c)
    case Some(color) => color
    case None => s.foregroundColor
  }

  function GetBackgroundColor(s: Style, c: ColorAttribute): (r: Color)
    ensures c.Default? <==> GetColor(s, c).None?
    ensures GetColor(s, c).Some? ==> r == GetColor(s, c).value
    ensures c.Default? ==> r == s.backgroundColor
  {
    match GetColor(s, c)
    case Some(color) => color
    case None => s.backgroundColor
  }

  // ---------------------------------------------------------------------------
  // Properties
  // ---------------------------------------------------------------------------

  /** A true colour ignores both the palette and its palette fallback index. */
  lemma TrueColorIgnoresPalette(s: Style, t: SrgbaTuple, i: u8, p: Palette256)
    ensures GetColor(s, TrueColorWithPaletteFallback(t, i))
         == GetColor(WithPalette(s, p), TrueColorWithDefaultFallback(t))
  {
  }

  /** Only a palette index consults the palette. */
  lemma GetColorDependsOnPaletteOnlyForIndex(s: Style, c: ColorAttribute, p: Palette256)
    requires !c.PaletteIndex?
    ensures GetColor(WithPalette(s, p), c) == GetColor(s, c)
  {
  }

  /** The fallback colours are the style's own foreground/background, and
      replacing them affects exactly the `Default` attribute. */
  lemma FallbackOnlyForDefault(s: Style, c: ColorAttribute, fg: Color, bg: Color)
    ensures c.Default? ==> GetForegroundColor(WithForegroundColor(s, fg), c) == fg
    ensures c.Default? ==> GetBackgroundColor(WithBackgroundColor(s, bg), c) == bg
    ensures !c.Default? ==> GetForegroundColor(WithForegroundColor(s, fg), c) == GetForegroundColor(s, c)
    ensures !c.Default? ==> GetBackgroundColor(WithBackgroundColor(s, bg), c) == GetBackgroundColor(s, c)
  {
  }

  /** The two fallbacks differ only in the style colour they fall back to. */
  lemma FallbacksAgreeOffDefault(s: Style, c: ColorAttribute)
    ensures !c.Default? ==> GetForegroundColor(s, c) == GetBackgroundColor(s, c)
    ensures GetForegroundColor(s, c) == GetBackgroundColor(s.(backgroundColor := s.foregroundColor), c)
  {
  }

  /** Any two setters of different fields commute, and a later setter of the
      same field overrides an earlier one. */
  lemma SettersCommuteAndOverride(s: Style, a: Setter, b: Setter)
    ensures FieldOf(a) != FieldOf(b) ==> Apply(Apply(s, a), b) == Apply(Apply(s, b), a)
    ensures FieldOf(a) == FieldOf(b) ==> Apply(Apply(s, a), b) == Apply(s, b)
  {
  }

  /** Setting a field to the value it already holds changes nothing. */
  lemma SetterOfCurrentValue(s: Style)
    ensures WithLineHeight(s, s.lineHeight) == s
    ensures WithPadding(s, s.padding) == s
    ensures WithForegroundColor(s, s.foregroundColor) == s
    ensures WithBackgroundColor(s, s.backgroundColor) == s
    ensures WithFont(s, s.font) == s
    ensures WithPalette(s, s.palette) == s
    ensures s.textSize.Some? ==> WithTextSize(s, s.textSize.value) == s
  {
  }

  /** Converting a palette keeps every entry at its index, so a palette index
      resolves to the converted engine colour at that index. */
  lemma PaletteIndexAfterConversion(s: Style, wez: seq<SrgbaTuple>, i: u8)
    requires |wez| == 256
    ensures GetColor(WithPalette(s, FromWezterm(wez)), PaletteIndex(i)) == Some(ToColor(wez[i as int]))
  {
  }
}

=== FILE: ui.dfy ===
/** Tab and window bookkeeping of the terminal application
    (frostbyte_term/src/ui.rs). Terminals, window handles and GUI tasks are
    opaque: a tab's terminal is reduced to the key filter it was started with,
    and the tasks an operation returns are reduced to a list of effect tags. */
module Ui {
  import opened GridTypes
  import opened Keys

  type TabId = nat
  type WindowId = nat

  /** The global key that shows and hides the window. */
  datatype Hotkey = F12Key | AltF12Key | PauseKey

  datatype Mode = Winit | Layershell

  /** A running tab's terminal; only the key filter it was given is visible. */
  datatype Terminal = Terminal(filter: Hotkey)

  /** What a tab's terminal asks of the application after handling its message. */
  datatype TerminalAction = Run | IdChanged | Close | NoAction

  datatype Message =
    | LocalTerminal(id: TabId, action: TerminalAction)
    | OpenTab
    | SwitchTab(id: TabId)
    | CloseTab(id: TabId)
    | HotkeyPressed
    | WindowOpened(window: WindowId)
    | CloseWindow
    | WindowClosed
    | Shutdown
    | Redraw

  /** Tasks handed back to the GUI runtime. */
  datatype Task =
    | StartTerminal(tab: TabId)
    | ForwardTerminal(tab: TabId)
    | FocusTerminal(tab: TabId)
    | RedrawTask
    | OpenWindowTask(window: WindowId)
    | FocusWindow(window: WindowId)
    | CloseWindowTask(window: WindowId)
    | Exit

  datatype UI = UI(
    terminals: map<TabId, Terminal>,
    windowId: Option<WindowId>,
    selectedTab: TabId,
    newTerminalId: TabId,
    hotkey: Hotkey,
    mode: Mode)

  /** The bookkeeping invariant: every tab id is below the next id to hand
      out, and while tabs exist the selected one is among them. */
  predicate Valid(ui: UI) {
    && (forall id :: id in ui.terminals ==> id < ui.newTerminalId)
    && (ui.terminals != map[] ==> ui.selectedTab in ui.terminals)
  }

  /** `Hotkey::default`: Pause when the DEBUG variable is set, otherwise F12
      on Linux and Alt+F12 elsewhere. */
  function DefaultHotkey(debugSet: bool, linux: bool): (h: Hotkey)
    ensures HotkeyKey(h).0 == if debugSet then Named(Pause) else Named(F(12))
    ensures HotkeyKey(h).1.alt <==> !debugSet && !linux
    ensures !HotkeyKey(h).1.shift && !HotkeyKey(h).1.control && !HotkeyKey(h).1.logo
  {
    if debugSet then PauseKey else if linux then F12Key else AltF12Key
  }

  /** `start_in_mode`: no tabs, no window, tab and id counters at 1, and the
      platform's default hotkey. Whether DEBUG is set and whether the target is
      Linux are parameters. */
  function StartInMode(mode: Mode, debugSet: bool, linux: bool): (ui: UI)
    ensures Valid(ui)
    ensures ui.terminals == map[] && ui.windowId == None
    ensures ui.selectedTab == 1 && ui.newTerminalId == 1
    ensures ui.mode == mode && ui.hotkey == DefaultHotkey(debugSet, linux)
  {
    UI(map[], None, 1, 1, DefaultHotkey(debugSet, linux), mode)
  }

  /** `m` is the smallest element of `keys`. */
  predicate IsMin(m: TabId, keys: set<TabId>) {
    m in keys && forall k :: k in keys ==> m <= k
  }

  lemma MinOfInsert(x: TabId, rest: set<TabId>, m: TabId)
    requires IsMin(m, rest)
    ensures IsMin(if x < m then x else m, rest + {x})
  {
  }

  lemma {:induction false} MinExists(keys: set<TabId>)
    requires keys != {}
    ensures exists m :: IsMin(m, keys)
    decreases |keys|
  {
    var x :| x in keys;
    var rest := keys - {x};
    if rest == {} {
      assert keys == {x};
      assert IsMin(x, keys);
    } else {
      assert |rest| < |keys|;
      MinExists(rest);
      var m :| IsMin(m, rest);
      MinOfInsert(x, rest, m);
      assert rest + {x} == keys;
    }
  }

  /** The first key in iteration order of an ordered map: the smallest. */
  function MinKey(keys: set<TabId>): (m: TabId)
    requires keys != {}
    ensures m in keys && forall k :: k in keys ==> m <= k
  {
    MinExists(keys);
    var m :| IsMin(m, keys); m
  }

  /** `close_window`. */
  function CloseWindowOp(ui: UI): (r: (UI, seq<Task>))
    ensures r.0 == ui.(windowId := None)
    ensures ui.windowId.Some? ==> r.1 == [CloseWindowTask(ui.windowId.value)]
    ensures ui.windowId.None? ==> r == (ui, [])
  {
    match ui.windowId
    case Some(id) => (ui.(windowId := None), [CloseWindowTask(id)])
    case None => (ui, [])
  }

  /** `open_tab`: starts a terminal under the next id and selects it. */
  function OpenTabOp(ui: UI): (r: (UI, seq<Task>))
    ensures var id := ui.newTerminalId;
            && r.0.terminals.Keys == ui.terminals.Keys + {id}
            && r.0.selectedTab == id
            && r.0.newTerminalId == id + 1
            && r.0.windowId == ui.windowId
            && r.0.terminals[id] == Terminal(ui.hotkey)
            && (forall k :: k in ui.terminals && k != id ==> r.0.terminals[k] == ui.terminals[k])
            && r.1 == [StartTerminal(id)]
    ensures Valid(ui) ==> Valid(r.0) && ui.newTerminalId !in ui.terminals
  {
    var id := ui.newTerminalId;
    var ui1 := ui.(newTerminalId := ui.newTerminalId + 1);
    var ui2 := ui1.(terminals := ui1.terminals[id := Terminal(ui.hotkey)], selectedTab := id);
    (ui2, [StartTerminal(id)])
  }

  /** `close_tab`: drops the tab, then selects the smallest remaining one, or
      closes the window when none is left. */
  function CloseTabOp(ui: UI, id: TabId): (r: (UI, seq<Task>))
    ensures r.0.terminals == ui.terminals - {id}
    ensures r.0.newTerminalId == ui.newTerminalId
    ensures ui.terminals.Keys - {id} != {} ==>
              && r.0.selectedTab == MinKey(ui.terminals.Keys - {id})
              && r.0.windowId == ui.windowId && r.1 == []
    ensures ui.terminals.Keys - {id} == {} ==>
              r.0.windowId == None && r.0.selectedTab == ui.selectedTab
    ensures Valid(ui) ==> Valid(r.0)
  {
    var remaining := ui.terminals - {id};
    var ui1 := ui.(terminals := remaining);
    if remaining.Keys != {} then
      (ui1.(selectedTab := MinKey(remaining.Keys)), [])
    else
      CloseWindowOp(ui1)
  }

  /** `switch_tab`: only an existing tab can be selected. */
  function SwitchTabOp(ui: UI, id: TabId): (r: UI)
    ensures id in ui.terminals ==> r == ui.(selectedTab := id)
    ensures id !in ui.terminals ==> r == ui
    ensures Valid(ui) ==> Valid(r)
  {
    if id in ui.terminals then ui.(selectedTab := id) else ui
  }

  /** `focus_tab`. */
  function FocusTab(ui: UI): (r: seq<Task>)
    ensures r != [] <==> ui.selectedTab in ui.terminals
    ensures r != [] ==> r == [FocusTerminal(ui.selectedTab), RedrawTask]
  {
    if ui.selectedTab in ui.terminals then [FocusTerminal(ui.selectedTab), RedrawTask] else []
  }

  /** `open_window`: a window that is already open only gets focus; otherwise
      `newWindow` becomes the window and, with no tabs, a first tab is opened. */
  function OpenWindowOp(ui: UI, newWindow: WindowId): (r: (UI, seq<Task>))
    ensures ui.windowId.Some? ==> r == (ui, [FocusWindow(ui.windowId.value)])
    ensures ui.windowId.None? ==>
              && r.0.windowId == Some(newWindow)
              && (ui.terminals == map[] ==> r.0.terminals.Keys == {ui.newTerminalId})
              && (ui.terminals != map[] ==> r.0 == ui.(windowId := Some(newWindow)))
    ensures Valid(ui) ==> Valid(r.0)
  {
    match ui.windowId
    case Some(id) => (ui, [FocusWindow(id)])
    case None =>
      var ui1 := ui.(windowId := Some(newWindow));
      var task := [OpenWindowTask(newWindow)];
      if ui1.terminals == map[] then
        var (ui2, tabTasks) := OpenTabOp(ui1);
        (ui2, task + tabTasks)
      else
        (ui1, task)
  }

  /** `UI::update`: routes one message. `newWindow` is the handle the GUI runtime
      would assign to a newly opened window. */
  function Update(ui: UI, msg: Message, newWindow: WindowId): (r: (UI, seq<Task>))
    ensures Valid(ui) ==> Valid(r.0)
    ensures msg.LocalTerminal? && msg.id !in ui.terminals ==> r == (ui, [])
    ensures msg.HotkeyPressed? ==> (r.0.windowId.Some? <==> ui.windowId.None?)
    ensures msg.WindowClosed? ==> r.0 == ui.(windowId := None)
    ensures r.0.hotkey == ui.hotkey && r.0.mode == ui.mode
  {
    match msg
    case LocalTerminal(id, action) =>
      if id !in ui.terminals then (ui, [])
      else (
        match action
        case Close => CloseTabOp(ui, id)
        case Run => (ui, [ForwardTerminal(id)])
        case IdChanged => (ui, FocusTab(ui))
        case NoAction => (ui, []))
    case OpenTab => OpenTabOp(ui)
    case SwitchTab(id) => (SwitchTabOp(ui, id), [])
    case CloseTab(id) => CloseTabOp(ui, id)
    case HotkeyPressed =>
      if ui.windowId.Some? then CloseWindowOp(ui) else OpenWindowOp(ui, newWindow)
    case WindowOpened(w) =>
      if ui.selectedTab in ui.terminals then (ui, [FocusWindow(w), FocusTerminal(ui.selectedTab)])
      else (ui, [])
    case CloseWindow => CloseWindowOp(ui)
    case WindowClosed => (ui.(windowId := None), [])
    case Shutdown => (ui, [Exit])
    case Redraw => (ui, [])
  }

  /** The GUI key and modifiers of a hotkey (`Hotkey::iced`). */
  function HotkeyKey(h: Hotkey): (r: (Key, Modifiers))
    ensures r.0 == Named(Pause) <==> h == PauseKey
    ensures r.0 != Named(Pause) ==> r.0 == Named(F(12))
    ensures r.1.alt <==> h == AltF12Key
    ensures !r.1.shift && !r.1.control && !r.1.logo
  {
    match h
    case F12Key => (Named(F(12)), NoModifiers)
    case AltF12Key => (Named(F(12)), Modifiers(false, false, true, false))
    case PauseKey => (Named(Pause), NoModifiers)
  }

  /** `Hotkey::filter`: the keys a tab's terminal must not swallow. */
  function Filter(h: Hotkey, key: Key, mods: Modifiers): bool {
    var (hotkey, hotkeyMods) := HotkeyKey(h);
    if key == Character("T") && mods.control && mods.shift then true
    else if key == hotkey && mods == hotkeyMods then true
    else false
  }

  // ---------------------------------------------------------------------------
  // Properties
  // ---------------------------------------------------------------------------

  /** Opening a tab uses an id no tab has yet and keeps the invariant. */
  lemma OpenTabFresh(ui: UI)
    requires Valid(ui)
    ensures ui.newTerminalId !in ui.terminals
    ensures var r := OpenTabOp(ui).0;
            Valid(r) && r.selectedTab in r.terminals && |r.terminals| == |ui.terminals| + 1
  {
    var r := OpenTabOp(ui).0;
    assert r.terminals.Keys == ui.terminals.Keys + {ui.newTerminalId};
  }

  /** Closing another tab than the selected one still moves the selection to
      the smallest remaining tab. */
  lemma CloseOtherTabReselectsSmallest()
    ensures var ui := UI(map[1 := Terminal(F12Key), 2 := Terminal(F12Key), 3 := Terminal(F12Key)],
                         Some(7), 3, 4, F12Key, Winit);
            var r := CloseTabOp(ui, 2).0;
            r.selectedTab == 1 && r.windowId == Some(7)
  {
    var keys := map[1 := Terminal(F12Key), 2 := Terminal(F12Key), 3 := Terminal(F12Key)].Keys - {2};
    assert keys == {1, 3};
  }

  /** Closing the last tab closes the window. */
  lemma CloseLastTabClosesWindow(ui: UI, id: TabId)
    requires ui.terminals.Keys == {id} && ui.windowId.Some?
    ensures var (r, tasks) := CloseTabOp(ui, id);
            r.terminals == map[] && r.windowId == None && tasks == [CloseWindowTask(ui.windowId.value)]
  {
    assert ui.terminals.Keys - {id} == {};
  }

  /** Pressing the hotkey twice from a hidden state with tabs returns to it. */
  lemma HotkeyTwiceRestores(ui: UI, newWindow: WindowId)
    requires ui.windowId.None? && ui.terminals != map[]
    ensures Update(Update(ui, HotkeyPressed, newWindow).0, HotkeyPressed, newWindow).0 == ui
  {
  }

  /** Showing the window with no tabs opens exactly one, selected. */
  lemma HotkeyOpensFirstTab(ui: UI, newWindow: WindowId)
    requires Valid(ui) && ui.windowId.None? && ui.terminals == map[]
    ensures var r := Update(ui, HotkeyPressed, newWindow).0;
            r.windowId == Some(newWindow) && r.terminals.Keys == {ui.newTerminalId}
            && r.selectedTab == ui.newTerminalId
  {
  }

  /** Closing the window twice is the same as closing it once. */
  lemma CloseWindowIdempotent(ui: UI)
    ensures CloseWindowOp(CloseWindowOp(ui).0) == (CloseWindowOp(ui).0, [])
  {
  }

  /** The filter accepts each hotkey's own key combination and Ctrl+Shift+"T"
      with any further modifiers; it accepts no other key. */
  lemma FilterCharacterisation(h: Hotkey, key: Key, mods: Modifiers)
    ensures Filter(h, HotkeyKey(h).0, HotkeyKey(h).1)
    ensures Filter(h, Character("T"), Modifiers(true, true, mods.alt, mods.logo))
    ensures Filter(h, key, mods) ==> key == Character("T") || key == HotkeyKey(h).0
    ensures key == HotkeyKey(h).0 ==> (Filter(h, key, mods) <==> mods == HotkeyKey(h).1)
    ensures Filter(h, key, mods)
        <==> (key == Character("T") && mods.control && mods.shift)
             || (key == HotkeyKey(h).0 && mods == HotkeyKey(h).1)
  {
  }

  /** The lower-case "t" is never filtered, whatever the modifiers. */
  lemma FilterIgnoresLowerCaseT(h: Hotkey, mods: Modifiers)
    ensures !Filter(h, Character("t"), mods)
  {
    assert Character("t") != Character("T") by { assert "t"[0] != "T"[0]; }
  }
}

=== FILE: viewport.dfy ===
/** Scroll-offset bookkeeping of the wezterm grid (frozen_term/src/wezterm.rs).
    The terminal engine is reduced to the two numbers the offset logic reads:
    the number of rows in its scrollback and the number of physical (visible)
    rows. How feeding bytes or resizing changes them is the engine's business,
    so the post-operation values are parameters. */
module Viewport {
  import opened GridTypes

  datatype Grid = Grid(scrollbackRows: nat, physicalRows: nat, scrollOffset: nat, size: Size)

  /** `WeztermGrid::max_scroll`: the offset that shows the newest rows. */
  function MaxScroll(g: Grid): (r: nat)
    ensures r + g.physicalRows >= g.scrollbackRows
    ensures r <= g.scrollbackRows
    ensures r > 0 ==> r + g.physicalRows == g.scrollbackRows
  {
    SaturatingSub(g.scrollbackRows, g.physicalRows)
  }

  /** The grid shows the newest rows (auto-follow is engaged). */
  predicate Pinned(g: Grid) {
    g.scrollOffset == MaxScroll(g)
  }

  /** The offset does not point past the newest rows. */
  predicate InBounds(g: Grid) {
    g.scrollOffset <= MaxScroll(g)
  }

  /** `advance_bytes`: the engine consumes output and ends up with
      `scrollbackAfter` rows of history; a pinned view follows it. */
  function AdvanceBytes(g: Grid, scrollbackAfter: nat): (r: Grid)
    ensures r.scrollbackRows == scrollbackAfter
    ensures r.physicalRows == g.physicalRows && r.size == g.size
    ensures Pinned(g) ==> Pinned(r)
    ensures !Pinned(g) ==> r.scrollOffset == g.scrollOffset
  {
    var autoScroll := g.scrollOffset == MaxScroll(g);
    var advanced := g.(scrollbackRows := scrollbackAfter);
    if autoScroll then advanced.(scrollOffset := MaxScroll(advanced)) else advanced
  }

  /** `resize`: the engine takes the new size (its physical rows become
      `size.rows`, its history becomes `scrollbackAfter` rows); the offset is
      clamped, never moved towards the bottom. */
  function Resize(g: Grid, size: Size, scrollbackAfter: nat): (r: Grid)
    ensures r.size == size && r.physicalRows == size.rows && r.scrollbackRows == scrollbackAfter
    ensures r.scrollOffset == Min(g.scrollOffset, MaxScroll(r))
    ensures InBounds(r)
    ensures r.scrollOffset <= g.scrollOffset
  {
    var resized := g.(physicalRows := size.rows, scrollbackRows := scrollbackAfter, size := size);
    resized.(scrollOffset := Min(g.scrollOffset, MaxScroll(resized)))
  }

  /** `scroll_up`: towards older rows, floored at the top of the history. */
  function ScrollUp(g: Grid, lines: nat): (r: Grid)
    ensures r.scrollOffset <= g.scrollOffset
    ensures r.scrollOffset + lines >= g.scrollOffset
    ensures r.scrollOffset > 0 ==> r.scrollOffset + lines == g.scrollOffset
    ensures r.(scrollOffset := g.scrollOffset) == g
  {
    g.(scrollOffset := SaturatingSub(g.scrollOffset, lines))
  }

  /** `scroll_down`: towards newer rows, capped at the newest. */
  function ScrollDown(g: Grid, lines: nat): (r: Grid)
    ensures InBounds(r)
    ensures r.scrollOffset <= g.scrollOffset + lines
    ensures r.scrollOffset < g.scrollOffset + lines ==> Pinned(r)
    ensures r.(scrollOffset := g.scrollOffset) == g
  {
    g.(scrollOffset := Min(g.scrollOffset + lines, MaxScroll(g)))
  }

  // ---------------------------------------------------------------------------
  // Properties
  // ---------------------------------------------------------------------------

  /** Every scroll operation keeps the offset within bounds; advancing does too
      as long as the history does not shrink. */
  lemma OperationsPreserveInBounds(g: Grid, n: nat, size: Size, after: nat)
    requires InBounds(g)
    ensures InBounds(ScrollUp(g, n))
    ensures InBounds(ScrollDown(g, n))
    ensures InBounds(Resize(g, size, after))
    ensures after >= g.scrollbackRows ==> InBounds(AdvanceBytes(g, after))
  {
  }

  /** Scrolling down by at least the distance to the bottom re-pins the view. */
  lemma ScrollDownFarEnoughPins(g: Grid, n: nat)
    requires InBounds(g)
    requires g.scrollOffset + n >= MaxScroll(g)
    ensures Pinned(ScrollDown(g, n))
  {
  }

  /** Scrolling up and back down by the same amount returns to the start
      when neither move was clipped. */
  lemma ScrollUpDownRoundTrip(g: Grid, n: nat)
    requires InBounds(g) && n <= g.scrollOffset
    ensures ScrollDown(ScrollUp(g, n), n) == g
  {
  }

  /** Resizing twice with the same arguments changes nothing the second time. */
  lemma ResizeIdempotent(g: Grid, size: Size, after: nat)
    ensures Resize(Resize(g, size, after), size, after) == Resize(g, size, after)
  {
  }

  /** A view that was not pinned keeps its offset while output arrives, even
      when the history has shrunk below it. */
  lemma AdvanceKeepsReaderPosition(g: Grid, after: nat)
    requires !Pinned(g)
    ensures AdvanceBytes(g, after).scrollOffset == g.scrollOffset
  {
  }

  /** Resizing clamps but does not re-pin: a view pinned to the bottom of a
      24-row screen over 100 rows of history is no longer pinned after the
      screen shrinks to 10 rows. */
  lemma ResizeDoesNotRepin()
    ensures var g := Grid(100, 24, 76, Size(80, 24));
            var r := Resize(g, Size(80, 10), 100);
            Pinned(g) && !Pinned(r) && r.scrollOffset == 76 && MaxScroll(r) == 90
  {
  }

  /** A pinned view stays pinned through a resize exactly when the new bottom
      is not further down than the old offset. */
  lemma ResizeKeepsPinIff(g: Grid, size: Size, after: nat)
    requires Pinned(g)
    ensures Pinned(Resize(g, size, after)) <==> MaxScroll(Resize(g, size, after)) <= g.scrollOffset
  {
  }
}
